=== FILE: README.md ===
# Skribbl room and turn state machine, in Dafny

This project models the server half of a small multiplayer draw-and-guess
game, the Socket.IO server in `server.js`. Players join a named room. One of
them draws while the others type guesses into the chat. A correct guess
scores 100 points. Turns rotate the drawer round-robin over the roster, for
five rounds.

The model covers the following, each as a pure function:

- the room registry: `createRoom`, `getOrCreateRoom`, and the JavaScript `Map` with its insertion order;
- `removePlayerFromRooms`;
- `startNextTurn`;
- `serializeRoom`;
- the `joinRoom`, `startGame`, `nextTurn`, `guessWord` and `disconnect` handlers.

Each handler takes the registry and returns the new registry, together with
the ordered list of events it emitted. Every event is addressed either to a
room channel (`io.to(roomId)`) or to one socket. The random word pick
(`pickWord`) becomes a parameter: an index into the fixed word list.

Modules, leaf to root:

- `Text` (text.dfy): guess normalisation. `trim` removes exactly the ECMAScript WhiteSpace and LineTerminator characters; `toLowerCase` folds ASCII letters.
- `Rooms` (rooms.dfy): players, rooms, the word list, `createRoom`, and the well-formedness predicate of a room.
- `Events` (events.dfy): outbound events, `serializeRoom`, and the drawer flags of a snapshot.
- `Turns` (turns.dfy): `startNextTurn`, and the "every non-drawer has guessed" test.
- `RoomRegistry` (registry.dfy): the `rooms` map, `getOrCreateRoom`, `removePlayerFromRooms`.
- `Handlers` (handlers.dfy): the socket handlers, the `Action` type for inbound events, and `Run`, which handles a sequence of events one after another.
- `Invariants` (invariants.dfy): every room reachable from an empty server stays well formed.
- `Guessing` (guessing.dfy): which guesses count, scoring once per turn, and exactly when a turn ends early.
- `Secrecy` (secrecy.dfy): every `yourWord` event is addressed only to the socket channel of the current drawer.
- `Scenarios` (scenarios.dfy): join and leave on a well-formed server, and concrete event sequences.

Points where the behaviour of `server.js` is easy to misread:

- A socket may join a second room while it is still in one. It is then on both rosters. A disconnect removes it only from the first room in registry order that holds it, as the loop in `removePlayerFromRooms` stops at the first match. The model does not assume that a player is in at most one room. Handlers update rooms in place, so the registry order only changes when a room is created (appended) or deleted (`Invariants.DispatchKeepsRoomOrder`).
- The drawer's own guesses are evaluated like anyone else's, so the drawer can score on their own word (`Scenarios.DrawerScoresOwnWord`). The drawer is not among the non-drawers. Such a guess therefore ends the turn exactly when the turn was still running, at least one non-drawer remains, and every non-drawer had already guessed. A drawer left alone by a leave scores but never ends the turn this way. A leave can leave every remaining non-drawer already guessed: the last non-drawer who had not yet guessed disconnects. The drawer's own correct guess then ends the turn (`Guessing.EvaluateAdvancesExactly` covers this case).
- The turn advances automatically only on the guess path. `removePlayerFromRooms` never runs the all-guessed test, so when the last non-drawer who had not guessed disconnects, the turn stays open with every remaining non-drawer guessed, the same word and round, and only a `roomState` emitted (`Guessing.LeaveNeverEndsTurn`, `Scenarios.LastGuesserLeavesTurnStaysOpen`). It moves on only at a later first correct guess that leaves every non-drawer guessed (the drawer's own, for instance), or at a `nextTurn`.
- `isDrawer` in a snapshot compares identifiers with the entry at the drawer index. When the index is out of range the source yields `undefined`; the model yields `false`. With distinct identifiers, exactly one entry is flagged when the index is in range (`Events.SnapshotMarksOneDrawer`).
- Event payloads are taken at emit time. In particular, `correctGuess` carries the ledger that already holds the new points.

## Model

| member | source | states |
|---|---|---|
| Text.TrimStart | server.js:194 | the result is a suffix of the input, everything dropped is white space, and the result does not start with white space |
| Text.TrimEnd | server.js:194 | the result is a prefix of the input, everything dropped is white space, and the result does not end with white space |
| Text.Trim | server.js:194 | the result is an infix with only white space on either side, and it neither starts nor ends with white space |
| Text.ToLower | server.js:194 | same length; no upper-case ASCII letter remains; every other character is kept; each upper-case letter becomes its lower-case letter |
| Text.TrimIgnoresPadding | server.js:194 | white space added before and after a string does not change its trimmed form |
| Text.TrimToLower | server.js:194 | trimming and lower-casing commute |
| Text.TrimFixesTrimmed | server.js:194 | a string with no white space at either end is its own trimmed form |
| Text.NormalizeIgnoresPadding | server.js:194 | a guess padded with white space normalises like the bare guess |
| Text.NormalizeIgnoresCase | server.js:194 | guesses that agree after lower-casing normalise alike |
| Text.NormalizeShape | server.js:194 | a normalised guess is no longer than the guess, holds no upper-case ASCII letter, and neither starts nor ends with white space |
| Text.NormalizeIdempotent | server.js:194 | normalising twice is the same as normalising once |
| Rooms.IndexOfPlayer | server.js:189 | `find`/`findIndex` by identifier: the first roster position holding the identifier, and none exactly when the identifier is absent |
| Rooms.RemoveAt | server.js:52 | `splice(index, 1)`: the roster without the entry at that position, the others kept in order |
| Rooms.RemoveAtIds | server.js:52-53 | with distinct identifiers, removing a roster entry removes exactly its identifier from the roster's identifier set and keeps the rest distinct |
| Rooms.AppendIds | server.js:145 | appending a player adds exactly its identifier at the end, and keeps identifiers distinct when it was not yet present |
| Events.Serialize | server.js:113-128 | the snapshot lists the roster in order with identifiers, names and guessed flags, and carries the room's ledger, round and round limit; with distinct identifiers an entry is flagged as drawer exactly when it sits at the drawer index; no entry is flagged when that index is out of range |
| Events.SnapshotMarksOneDrawer | server.js:120-122 | with distinct identifiers at most one entry is flagged as drawer, and when the drawer index is in range that entry is the only one flagged |
| Turns.ResetGuessed | server.js:95-97 | every guessed flag is cleared; identifiers, names and order are kept |
| Turns.StartNextTurn | server.js:72-111 | no change on an empty room; past the last round: one `gameOver` with the ledger to the room, and round, drawer index and word reset; otherwise round + 1, drawer index kept if in range else 0, the picked word, nobody guessed, ledger and roster identities kept, `newTurn` with only the word's length to the room, then `yourWord` to the drawer's socket alone |
| Turns.ExceptIndex | server.js:219-221 | the roster without the entry at the index, or the whole roster when the index is out of range |
| Turns.AllGuessedByPosition | server.js:219-222 | the turn ends early exactly when the roster holds someone besides the entry at the drawer index and every other position has guessed |
| Turns.LoneDrawerNeverAdvances | server.js:219-222 | a room holding only its drawer never ends a turn early |
| Turns.RoundStaysInBounds | server.js:77-86 | turn progression keeps the round within the limit, and on a room with players it returns to 0 exactly when the last round was already played |
| RoomRegistry.IndexOfRoom | server.js:12 | the position of the entry holding a key, and none exactly when no entry holds it |
| RoomRegistry.Lookup | server.js:157 | `rooms.get`: the room of the entry holding the key, and none exactly when no entry holds it |
| RoomRegistry.Put | server.js:37 | `rooms.set`: the key now maps to the room and no other key changes; an existing key keeps its position, a new key is appended; storing the room already there changes nothing |
| RoomRegistry.Delete | server.js:55 | `rooms.delete`: the key is gone, every other key is unaffected, the entries left are exactly the others, and they keep their order (an absent key changes nothing) |
| RoomRegistry.GetOrCreate | server.js:27-46 | an existing room is returned with the registry unchanged; an unknown key gets a fresh room (no players, index 0, no word, empty ledger, round 0, five rounds) appended last; either way the key then maps to the returned room |
| RoomRegistry.FirstRoomWith | server.js:49-51 | the first room, in registry order, whose roster holds the player, and none exactly when no room holds it |
| RoomRegistry.Without | server.js:50-59 | the room minus the player: the roster without the first entry for the player, the others in order with their names and flags; the ledger without the player and otherwise unchanged; the drawer index unchanged if still in range, else reset to 0; round, word and round limit unchanged; with distinct identifiers the identifier set loses exactly the player |
| RoomRegistry.RemovePlayerFromRooms | server.js:48-65 | no change when no room holds the player; otherwise only the first room holding it changes: deleted with no event when the player was its last member, else replaced in place by the room without the player, and that room is sent its new state; the other entries keep their order and positions |
| Handlers.Admit | server.js:139-149 | a socket already on the roster changes nothing; otherwise it is appended with `guessed` false, and the ledger gains its identifier, set to 0 when it had no entry and kept when it had one, with other entries unchanged |
| Handlers.Join | server.js:133-154 | an empty room id or name is ignored; otherwise the room exists afterwards and no other room changes; an unknown room is created and appended holding just the player with score 0; a known room admits the player in place, keeping its registry position, and a repeated join leaves the registry unchanged; the room is sent its state in every case |
| Handlers.StartGame | server.js:156-164 | an unknown room is ignored; otherwise round and drawer index are reset and a turn starts, with the room kept at its registry position; on a room with players this is round 1 with the first player drawing the picked word, and the last event is that word sent to the first player's socket |
| Handlers.NextTurn | server.js:166-173 | an unknown room is ignored; otherwise the drawer index moves one place on (to 0 past the end) and a turn starts, with the room kept at its registry position, or after the last round the game ends with a single `gameOver` and the room is reset |
| Handlers.Credit | server.js:207-209 | the sender is flagged as having guessed and gets 100 points more (from 0 when it had no entry); every other player and ledger entry is unchanged |
| Handlers.Evaluate | server.js:196-228 | the raw guess is always echoed to the room first, no other room changes, and the room keeps its registry position; a guess that is not a first correct one this turn changes nothing else; a first correct guess credits the sender, announces it with the new ledger and state, and, when that completes the set of non-drawers, moves the drawer index on and starts the next turn |
| Handlers.GuessWord | server.js:183-229 | an unknown room, an empty guess or a sender not on the roster is ignored with no event; otherwise the sender's first roster entry is evaluated against the trimmed, lower-cased guess |
| Invariants.FreshRoomFirstJoinWellFormed | server.js:27-39 | `createRoom` gives a room with the id, no players, an empty ledger, no word, round 0, drawer index 0 and five rounds, and admitting a first player to it gives a well-formed room |
| Invariants.TurnKeepsWellFormed | server.js:72-111 | a turn start leads to a well-formed room from any room with players, distinct identifiers, a matching ledger and a round within bounds |
| Invariants.JoinKeepsOk | server.js:133-154 | a join keeps every room of a well-formed server well formed |
| Invariants.StartGameKeepsOk | server.js:156-164 | a game start keeps every room well formed |
| Invariants.NextTurnKeepsOk | server.js:166-173 | a manual skip keeps every room well formed |
| Invariants.CreditKeepsWellFormed | server.js:207-209 | crediting a roster member keeps a room well formed |
| Invariants.EvaluateKeepsOk | server.js:196-228 | evaluating a guess keeps every room well formed |
| Invariants.GuessWordKeepsOk | server.js:183-229 | a guess keeps every room well formed |
| Invariants.DisconnectKeepsOk | server.js:231-233 | a disconnect keeps every room well formed |
| Invariants.DisconnectRemovesPlayer | server.js:231-233 | on a well-formed server a disconnect of a socket in no room changes nothing; otherwise only the first room holding it changes, it is deleted exactly when the socket was its only player, and if kept it no longer lists the socket on its roster or ledger |
| Invariants.DispatchKeepsOk | server.js:132-234 | every handler keeps every room well formed |
| Invariants.TurnStaysInChannel | server.js:99-110 | a turn start emits to no room channel other than that of the room it starts in |
| Invariants.EvaluateStaysInChannel | server.js:201-227 | an evaluated guess emits to no room channel other than that of its room |
| Invariants.TurnHandlersStayInRoom | server.js:156-173 | on a well-formed server `startGame` and `nextTurn` change no other room and emit to no other room channel |
| Invariants.GuessStaysInRoom | server.js:183-229 | on a well-formed server `guessWord` changes no other room and emits to no other room channel |
| Invariants.DispatchTouchesOneRoom | server.js:132-234 | on a well-formed server every event changes at most one room (the named one, or for a disconnect the first room holding the socket), and every emission to a room channel goes to that room |
| Invariants.DispatchKeepsRoomOrder | server.js:132-234 | every event keeps the registry's insertion order, which decides the room a later disconnect touches: a join to an unknown room appends its key, a disconnect that empties a room removes exactly that key with the others in order, and every other event leaves the key sequence unchanged |
| Invariants.RunKeepsOk | server.js:132-234 | any sequence of events keeps every room well formed |
| Handlers.RunConcat | server.js:132-234 | handling two sequences of events one after the other is handling their concatenation, with the emissions concatenated in order |
| Invariants.ReachableRoomsWellFormed | server.js:132-234 | after any sequence of events from an empty server, every room's ledger keys are exactly its players' identifiers, its drawer index points into its roster, its round lies in `[0, maxRounds]` with `maxRounds` 5, and it has a word exactly while its round is positive |
| Guessing.WordsAreLowerCase | server.js:14-25 | every listed word is non-empty and already lower case |
| Guessing.MatchesIffActiveWord | server.js:196-199 | for no word or a listed word, a normalised guess matches exactly when it is the active word |
| Guessing.CorrectIffNormalizedEqualsWord | server.js:194-199 | for a listed word, a guess is correct exactly when its trimmed, lower-cased form is the word itself |
| Guessing.CorrectUpToPaddingAndCase | server.js:194-199 | white space around a guess and the case of its letters do not change whether it is correct |
| Guessing.IndexOfPlayerByIds | server.js:189 | the roster entry found for an identifier depends only on the roster's identifiers |
| Guessing.CorrectGuessOutcome | server.js:207-227 | a correct guess leaves the registry unchanged when the sender had already guessed; otherwise the ledger becomes the credited one, and the room is exactly the credited room whenever the round did not move |
| Guessing.RepeatGuessChangesNothing | server.js:207 | a sender who has already guessed this turn changes nothing by guessing again, right or wrong |
| Guessing.ScoredOncePerTurn | server.js:207-209 | a correct guess raises the sender's score by 100 the first time in a turn and by 0 otherwise; while the round is unchanged, a further guess by the same sender leaves the registry unchanged |
| Guessing.CreditCompletesTurn | server.js:219-222 | crediting a player completes the turn exactly when the room has at least two players and every non-drawer besides that player had already guessed |
| Guessing.EvaluateAdvancesExactly | server.js:207-227 | evaluating an already normalised guess moves the round exactly when it matches the word, is the sender's first this turn, the room has at least two players, and every other non-drawer had already guessed |
| Guessing.AutoAdvanceExactly | server.js:207-227 | a guess moves the round exactly when it is correct, is the sender's first this turn, the room has at least two players, and every other non-drawer had already guessed |
| Guessing.LeaveNeverEndsTurn | server.js:48-65 | a disconnect leaves the round and word of every room that survives it unchanged and emits only room state, so it never ends a turn, even when every remaining non-drawer has guessed |
| Secrecy.TurnTellsOnlyDrawer | server.js:99-110 | every `yourWord` of a turn start goes to one socket, that of the drawer of the room stored under the turn's key, and carries that room's active word |
| Secrecy.StartGameTellsOnlyDrawer | server.js:156-164 | every `yourWord` of a game start goes to the socket of the drawer of the started room, and carries that room's active word |
| Secrecy.NextTurnTellsOnlyDrawer | server.js:166-173 | every `yourWord` of a manual skip goes to the socket of the drawer of the skipped room, and carries that room's active word |
| Secrecy.CompletingGuessTellsOnlyDrawer | server.js:224-227 | a guess that ends the turn sends the new word only to the socket of the new drawer of the guessed room |
| Secrecy.OtherGuessTellsNobody | server.js:201-217 | any other guess emits no `yourWord` at all |
| Secrecy.EvaluateTellsOnlyDrawer | server.js:196-228 | every `yourWord` of an evaluated guess goes to the socket of the drawer of the guessed room, and carries that room's active word |
| Secrecy.DispatchTellsOnlyDrawer | server.js:132-234 | whatever event is handled, each `yourWord` goes to the socket of the drawer of the room the event touches, and carries that room's active word |
| Scenarios.JoinTwiceIsNoop | server.js:139 | a second identical join leaves the registry as the first join left it |
| Scenarios.FreshJoinAppendsOne | server.js:139-148 | on a well-formed server, a new player is appended at the end of the roster, not guessed, with score 0, and the existing roster and ledger are kept |
| Scenarios.LeaveKeepsOneDrawer | server.js:48-65 | on a well-formed server, a leave from a room that keeps players removes the player's entry from the roster, the others kept in order, and from the ledger; the drawer index is kept if in range and otherwise 0; the room is sent one state snapshot that flags exactly one drawer, at that index |
| Scenarios.AnnLeaves | server.js:50-59 | when the drawer at index 0 of a two-player room leaves, the other player, now at index 0, stays with the ledger holding only their score |
| Scenarios.DrawerLeavesPartnerFlagged | server.js:48-65 | that disconnect stores the two-player room without its drawer and sends one snapshot flagging the remaining player as drawer |
| Scenarios.BobLeavesAsDrawer | server.js:50-59 | when the drawer at index 1 leaves a two-player room, the drawer index, now out of range, is reset to 0 |
| Scenarios.LastDrawerLeavesIndexReset | server.js:48-65 | that disconnect stores the room with index 0 and sends one snapshot flagging the remaining player as drawer |
| Scenarios.LastLeaveForgetsRoom | server.js:54-55 | when the last player leaves, the room is deleted with no event, and a later join under the same id starts a fresh room holding only the new player |
| Scenarios.PaddedCapitalisedGuessMatches | server.js:194-199 | " Cat " is a correct guess for "cat" |
| Scenarios.ExactGuessMatches | server.js:194-199 | "dog" is a correct guess for "dog" |
| Scenarios.TwoJoinThenStart | server.js:133-164 | after two joins to "r1" both players are listed at round 0; a start then begins round 1 with the first player drawing, tells the room only the word length, and sends the word to the first player's socket |
| Scenarios.CreditingBobEndsTurn | server.js:207-222 | in a two-player turn, crediting the non-drawer completes the turn |
| Scenarios.BobDrawsNext | server.js:72-111 | the turn after the first player's is the second player's, in round 2 |
| Scenarios.BobGuessesDog | server.js:196-228 | the non-drawer's correct guess credits 100 and emits, in order, the chat echo, `correctGuess` with the new ledger, the credited room's state, `newTurn` for round 2 naming the non-drawer with only the word length, and `yourWord` to the non-drawer's socket alone |
| Scenarios.GuessEndsTwoPlayerTurn | server.js:183-229 | any raw guess that normalises to the word gives the same stored room and the same five emissions, the word itself only in the last, to the new drawer's socket |
| Scenarios.CreditingAnnKeepsTurn | server.js:207-222 | crediting the drawer does not complete the turn while the other player has not guessed |
| Scenarios.AnnGuessesDog | server.js:196-228 | the drawer's correct guess credits the drawer 100 points and the turn goes on |
| Scenarios.DrawerScoresOwnWord | server.js:183-229 | guess handling has no role check: the drawer scores 100 on their own word, and the turn continues |
| Scenarios.LastGuesserLeavesTurnStaysOpen | server.js:48-65 | when the last non-drawer still to guess leaves a three-player room, the remaining non-drawer has guessed, yet the room stays in round 1 on the same word with the same drawer, and only its new state is sent |

## Left out

- The `draw` relay (server.js:175-181) is left out. It forwards stroke data to the other sockets of the room and touches no room state.
- The HTTP server, static file hosting and `listen` are left out (server.js:1-10, 130, 236-238). They are I/O.
- Socket.IO shares one namespace between room channels and socket channels: a socket that joins a room named after another socket's id receives what is sent to that socket, `yourWord` included. The model keeps `ToRoom` and `ToSocket` apart, so its secrecy lemmas speak of addressing, not of who receives the event.
- `socket.join(roomId)` (server.js:151) is left out. Room channel membership belongs to the transport. An event addressed to a room channel is modelled as `ToRoom(roomId)` and is not expanded into recipients.
- The randomness of `pickWord` (`Math.random`) is left out. Every operation that may start a turn takes the outcome as a `WordChoice` index into the word list.
- `Text.ToLower`: only ASCII letters are folded. JavaScript's `toLowerCase` also folds non-ASCII letters, including the multi-character special cases. The listed words are ASCII, but a non-ASCII guess may normalise differently in the source.
- Coercion and truthiness of payload fields are left out. These are the `String(guess)` coercion and the tests `!roomId`, `!playerName` and `!guess` on non-string values, and destructuring of a missing payload. Every field is a string, and these tests become emptiness tests.
- The ledger is a map, not a plain JavaScript object. Keys such as `__proto__` that clash with object properties are not modelled.
- Integer widths are not modelled: drawer index, round and scores are unbounded naturals. The source only ever adds 1 or 100 to them, or resets them.
- Concurrency is not modelled beyond run-to-completion. Each handler runs to completion before the next one, which matches the single-threaded event loop, and `Run` applies events one after another.
- The browser client under `public/` is not part of this model.

=== FILE: events.dfy ===
/**
  What the server sends. Every emission is addressed either to the whole
  room channel or to the private channel of one socket.
 */
module Events {
  import opened Rooms

  datatype Audience = ToRoom(roomId: RoomId) | ToSocket(socketId: PlayerId)

  /** A roster entry as clients see it. */
  datatype PlayerView = PlayerView(id: PlayerId, name: string, guessed: bool, isDrawer: bool)

  /** The `roomState` payload. */
  datatype Snapshot = Snapshot(
    roomId: RoomId,
    players: seq<PlayerView>,
    scores: map<PlayerId, nat>,
    round: nat,
    maxRounds: nat)

  datatype Event =
    | RoomState(snapshot: Snapshot)
    | NewTurn(roomId: RoomId, drawerId: PlayerId, drawerName: string,
              round: nat, maxRounds: nat, wordLength: nat)
    | YourWord(word: string)
    | ChatMessage(playerId: PlayerId, playerName: string, message: string)
    | CorrectGuess(playerId: PlayerId, playerName: string, scores: map<PlayerId, nat>)
    | GameOver(scores: map<PlayerId, nat>)

  datatype Outbound = Outbound(to: Audience, event: Event)

  /** True of the roster entry holding the same identifier as the entry at the
      current drawer index (false when the index is out of range). */
  predicate MarkedDrawer(room: Room, p: Player) {
    room.currentDrawerIndex < |room.players|
    && room.players[room.currentDrawerIndex].id == p.id
  }

  /** `serializeRoom`: the roster in order, each entry flagged when it is the
      drawer. With distinct identifiers the flag sits exactly on the entry at
      the drawer index, and on no entry when that index is out of range. */
  function Serialize(room: Room): (s: Snapshot)
    ensures s.roomId == room.roomId && s.scores == room.scores
    ensures s.round == room.round && s.maxRounds == room.maxRounds
    ensures |s.players| == |room.players|
    ensures forall i :: 0 <= i < |s.players| ==>
              && s.players[i].id == room.players[i].id
              && s.players[i].name == room.players[i].name
              && s.players[i].guessed == room.players[i].guessed
    ensures UniqueIds(room.players) ==>
              forall i :: 0 <= i < |s.players| ==>
                (s.players[i].isDrawer <==> i == room.currentDrawerIndex)
    ensures room.currentDrawerIndex >= |room.players| ==>
              forall i :: 0 <= i < |s.players| ==> !s.players[i].isDrawer
  {
    var ps := room.players;
    Snapshot(
      room.roomId,
      seq(|ps|, i requires 0 <= i < |ps| =>
        PlayerView(ps[i].id, ps[i].name, ps[i].guessed, MarkedDrawer(room, ps[i]))),
      room.scores,
      room.round,
      room.maxRounds)
  }

  /** The positions flagged as drawer in a snapshot. */
  function DrawerMarks(s: Snapshot): set<nat> {
    set i: nat | i < |s.players| && s.players[i].isDrawer
  }

  /** With distinct identifiers at most one entry is flagged as drawer, and
      exactly one (the entry at the drawer index) when that index is in range. */
  lemma SnapshotMarksOneDrawer(room: Room)
    requires UniqueIds(room.players)
    ensures |DrawerMarks(Serialize(room))| <= 1
    ensures room.currentDrawerIndex < |room.players| ==>
              DrawerMarks(Serialize(room)) == {room.currentDrawerIndex}
  {
    var s := Serialize(room);
    if room.currentDrawerIndex < |room.players| {
      assert DrawerMarks(s) == {room.currentDrawerIndex};
    } else {
      assert DrawerMarks(s) == {};
    }
  }
}

=== FILE: guessing.dfy ===
/**
  Guess evaluation on a well-formed server: which guesses count, that a
  player is credited at most once per turn, and exactly when a correct guess
  ends the turn.
 */
module Guessing {
  import opened Text
  import opened Rooms
  import opened Turns
  import opened RoomRegistry
  import opened Handlers
  import opened Invariants

  /** Every listed word is non-empty and already lower case. */
  lemma WordsAreLowerCase()
    ensures forall w :: w in WORDS ==> w != "" && ToLower(w) == w
  {
    forall w | w in WORDS
      ensures w != "" && ToLower(w) == w
    {
      ToLowerFixesLower(w);
    }
  }

  /** With no active word nothing matches; with a listed word exactly that
      word matches. */
  lemma MatchesIffActiveWord(word: Option<string>, normalized: string)
    requires word.Some? ==> word.value in WORDS
    ensures Matches(word, normalized) <==> word == Some(normalized)
  {
    WordsAreLowerCase();
  }

  /** For a word from the list, a guess is correct exactly when its trimmed,
      lower-cased form is the word itself. */
  lemma CorrectIffNormalizedEqualsWord(w: string, g: string)
    requires w in WORDS
    ensures IsCorrect(Some(w), g) <==> Normalize(g) == w
  {
    WordsAreLowerCase();
  }

  /** Padding and capitals never turn a correct guess into a wrong one. */
  lemma CorrectUpToPaddingAndCase(word: Option<string>, a: string, g: string, h: string, b: string)
    requires AllSpace(a) && AllSpace(b) && ToLower(g) == ToLower(h)
    ensures IsCorrect(word, a + h + b) <==> IsCorrect(word, g)
  {
    NormalizeIgnoresPadding(a, h, b);
    NormalizeIgnoresCase(g, h);
  }

  /** Whether the roster entry of `socket` has guessed in the current turn. */
  function HasGuessed(room: Room, socket: PlayerId): bool
    requires socket in Ids(room.players)
  {
    room.players[IndexOfPlayer(room.players, socket).value].guessed
  }

  /** The first entry for an id depends only on the roster's ids. */
  lemma {:induction false} IndexOfPlayerByIds(a: seq<Player>, b: seq<Player>, id: PlayerId)
    requires Ids(a) == Ids(b)
    ensures IndexOfPlayer(a, id) == IndexOfPlayer(b, id)
    decreases |a|
  {
    if |a| > 0 {
      assert a[0].id == Ids(a)[0] == b[0].id;
      assert Ids(a[1..]) == Ids(a)[1..] == Ids(b)[1..] == Ids(b[1..]);
      IndexOfPlayerByIds(a[1..], b[1..], id);
    }
  }

  /** Where a correct guess leaves the room: unchanged when the sender had
      already guessed, otherwise with the sender credited (and, when that
      completes the set, the next turn started, which moves the round). */
  lemma CorrectGuessOutcome(reg: Registry, socket: PlayerId, roomId: RoomId, g: string, pick: WordChoice)
    requires RegistryOk(reg)
    requires Lookup(reg, roomId).Some? && socket in Ids(Lookup(reg, roomId).value.players)
    requires IsCorrect(Lookup(reg, roomId).value.word, g)
    ensures var room := Lookup(reg, roomId).value;
            var i := IndexOfPlayer(room.players, socket).value;
            var s1 := GuessWord(reg, socket, roomId, g, pick);
            && Lookup(s1.reg, roomId).Some?
            && (room.players[i].guessed ==> s1.reg == reg)
            && (!room.players[i].guessed ==>
                  && Lookup(s1.reg, roomId).value.scores == Credit(room, i).scores
                  && (Lookup(s1.reg, roomId).value.round == room.round ==>
                        Lookup(s1.reg, roomId) == Some(Credit(room, i))))
  {
    var room := Lookup(reg, roomId).value;
    assert HoldsAt(reg, roomId);
    var i := IndexOfPlayer(room.players, socket).value;
    assert g != "";
    if !room.players[i].guessed && AllGuessed(Credit(room, i)) {
      assert room.round > 0;
    }
  }

  /** A sender who has already guessed in this turn changes nothing by
      guessing again, right or wrong. */
  lemma RepeatGuessChangesNothing(reg: Registry, socket: PlayerId, roomId: RoomId, g: string, pick: WordChoice)
    requires Lookup(reg, roomId).Some? && socket in Ids(Lookup(reg, roomId).value.players)
    requires HasGuessed(Lookup(reg, roomId).value, socket)
    ensures GuessWord(reg, socket, roomId, g, pick).reg == reg
  {
    if g != "" {
      var room := Lookup(reg, roomId).value;
      var i := IndexOfPlayer(room.players, socket).value;
      assert GuessWord(reg, socket, roomId, g, pick) == Evaluate(reg, roomId, room, i, g, Normalize(g), pick);
    }
  }

  /** Evaluating a guess ends the turn (the round counter moves) exactly when
      the guess matches, it is the sender's first this turn, and it completes
      the set: the room holds someone besides the drawer and every non-drawer
      other than the sender had already guessed. */
  lemma EvaluateAdvancesExactly(reg: Registry, roomId: RoomId, room: Room, i: nat, guess: string,
                                normalized: string, pick: WordChoice)
    requires Lookup(reg, roomId) == Some(room) && WellFormed(room) && i < |room.players|
    ensures var r := Evaluate(reg, roomId, room, i, guess, normalized, pick);
            && Lookup(r.reg, roomId).Some?
            && (Lookup(r.reg, roomId).value.round != room.round <==>
                  && Matches(room.word, normalized) && !room.players[i].guessed
                  && |room.players| >= 2
                  && forall k :: 0 <= k < |room.players| && k != room.currentDrawerIndex && k != i ==>
                       room.players[k].guessed)
  {
    if Matches(room.word, normalized) && !room.players[i].guessed {
      CreditCompletesTurn(room, i);
      if AllGuessed(Credit(room, i)) {
        assert room.round > 0;
      }
    }
  }

  /** A correct guess credits its sender 100 points the first time in a turn
      and nothing after that: while the turn lasts, a further guess by the
      same sender leaves the registry unchanged. */
  lemma ScoredOncePerTurn(reg: Registry, socket: PlayerId, roomId: RoomId,
                          g1: string, g2: string, p1: WordChoice, p2: WordChoice)
    requires RegistryOk(reg)
    requires Lookup(reg, roomId).Some? && socket in Ids(Lookup(reg, roomId).value.players)
    requires IsCorrect(Lookup(reg, roomId).value.word, g1)
    ensures var room := Lookup(reg, roomId).value;
            var s1 := GuessWord(reg, socket, roomId, g1, p1);
            && Lookup(s1.reg, roomId).Some?
            && socket in room.scores && socket in Lookup(s1.reg, roomId).value.scores
            && Lookup(s1.reg, roomId).value.scores[socket] ==
                 room.scores[socket] + (if HasGuessed(room, socket) then 0 else 100)
            && (Lookup(s1.reg, roomId).value.round == room.round ==>
                  GuessWord(s1.reg, socket, roomId, g2, p2).reg == s1.reg)
  {
    var room := Lookup(reg, roomId).value;
    assert HoldsAt(reg, roomId);
    var i := IndexOfPlayer(room.players, socket).value;
    assert socket in room.scores by { assert Ids(room.players)[i] == socket; }
    CorrectGuessOutcome(reg, socket, roomId, g1, p1);
    var s1 := GuessWord(reg, socket, roomId, g1, p1);
    var after := Lookup(s1.reg, roomId).value;
    if after.round == room.round {
      if !room.players[i].guessed {
        var s := Credit(room, i);
        assert after == s;
        IndexOfPlayerByIds(s.players, room.players, socket);
        assert s.players[i].guessed;
      }
      assert socket in Ids(after.players) && HasGuessed(after, socket);
      RepeatGuessChangesNothing(s1.reg, socket, roomId, g2, p2);
    }
  }

  /** Crediting the player at position `i` completes the turn exactly when
      the room holds someone besides the drawer and every non-drawer other
      than `i` had already guessed. */
  lemma CreditCompletesTurn(room: Room, i: nat)
    requires WellFormed(room) && i < |room.players|
    ensures AllGuessed(Credit(room, i)) <==>
              && |room.players| >= 2
              && forall k :: 0 <= k < |room.players| && k != room.currentDrawerIndex && k != i ==>
                   room.players[k].guessed
  {
    var s := Credit(room, i);
    AllGuessedByPosition(s);
    assert forall k :: 0 <= k < |s.players| && k != i ==> s.players[k].guessed == room.players[k].guessed;
    assert s.players[i].guessed;
  }

  /** A guess ends the turn (the round counter moves) exactly when it is the
      sender's first correct guess this turn and it completes the set: the
      room holds someone besides the drawer and every non-drawer other than
      the sender had already guessed. */
  lemma AutoAdvanceExactly(reg: Registry, socket: PlayerId, roomId: RoomId, g: string, pick: WordChoice)
    requires RegistryOk(reg)
    requires Lookup(reg, roomId).Some? && socket in Ids(Lookup(reg, roomId).value.players)
    ensures var room := Lookup(reg, roomId).value;
            var i := IndexOfPlayer(room.players, socket).value;
            var s1 := GuessWord(reg, socket, roomId, g, pick);
            && Lookup(s1.reg, roomId).Some?
            && (Lookup(s1.reg, roomId).value.round != room.round <==>
                  && IsCorrect(room.word, g) && !room.players[i].guessed
                  && |room.players| >= 2
                  && forall k :: 0 <= k < |room.players| && k != room.currentDrawerIndex && k != i ==>
                       room.players[k].guessed)
  {
    var room := Lookup(reg, roomId).value;
    assert HoldsAt(reg, roomId);
    var i := IndexOfPlayer(room.players, socket).value;
    if g != "" {
      EvaluateAdvancesExactly(reg, roomId, room, i, g, Normalize(g), pick);
    }
  }

  /** A disconnect never ends a turn: the room it touches keeps its round
      and word, and all it emits is room state. The all-guessed test runs
      only on the guess path, so a leave that leaves every remaining
      non-drawer already guessed leaves the turn open. */
  lemma LeaveNeverEndsTurn(reg: Registry, socket: PlayerId)
    ensures var r := Disconnect(reg, socket);
            && (forall k :: Lookup(reg, k).Some? && Lookup(r.reg, k).Some? ==>
                  Lookup(r.reg, k).value.round == Lookup(reg, k).value.round
                  && Lookup(r.reg, k).value.word == Lookup(reg, k).value.word)
            && (forall j :: 0 <= j < |r.out| ==> r.out[j].event.RoomState?)
  {
  }
}

=== FILE: handlers.dfy ===
/**
  The inbound socket handlers. Each runs to completion on the registry and
  returns the new registry together with everything it emitted, in order.
 */
module Handlers {
  import opened Text
  import opened Rooms
  import opened Events
  import opened Turns
  import opened RoomRegistry

  /** The room after `socket` joins it: unchanged when `socket` is already on
      the roster, otherwise one more player at the end with a ledger entry,
      which starts at 0 unless the socket already had one (that is kept). */
  function Admit(room: Room, socket: PlayerId, playerName: string): (r: Room)
    ensures socket in Ids(room.players) ==> r == room
    ensures socket !in Ids(room.players) ==>
              && r == room.(players := r.players, scores := r.scores)
              && r.players == room.players + [Player(socket, playerName, false)]
              && r.scores.Keys == room.scores.Keys + {socket}
              && (forall k :: k in room.scores && k != socket ==> r.scores[k] == room.scores[k])
              && (socket !in room.scores ==> r.scores[socket] == 0)
              && (socket in room.scores ==> r.scores[socket] == room.scores[socket])
  {
    if socket in Ids(room.players) then room
    else
      var scores :=
        if socket !in room.scores || room.scores[socket] == 0 then room.scores[socket := 0]
        else room.scores;
      room.(players := room.players + [Player(socket, playerName, false)], scores := scores)
  }

  /** `joinRoom`. Ignored when the room id or the name is empty. Otherwise
      the room (created and registered last when unknown) admits `socket`,
      no other room changes, and the room is sent its new state. */
  function Join(reg: Registry, socket: PlayerId, roomId: RoomId, playerName: string): (r: Step)
    ensures roomId == "" || playerName == "" ==> r == Step(reg, [])
    ensures roomId != "" && playerName != "" ==>
              && Lookup(r.reg, roomId).Some?
              && (forall k :: k != roomId ==> Lookup(r.reg, k) == Lookup(reg, k))
              && r.out == [Outbound(ToRoom(roomId), RoomState(Serialize(Lookup(r.reg, roomId).value)))]
              && (Lookup(reg, roomId).None? ==>
                    r.reg == reg + [Entry(roomId, CreateRoom(roomId).(
                                      players := [Player(socket, playerName, false)],
                                      scores := map[socket := 0]))])
              && (Lookup(reg, roomId).Some? ==>
                    Lookup(r.reg, roomId) == Some(Admit(Lookup(reg, roomId).value, socket, playerName)))
              && (Lookup(reg, roomId).Some? && socket in Ids(Lookup(reg, roomId).value.players) ==>
                    r.reg == reg)
              && (IndexOfRoom(reg, roomId).Some? ==>
                    r.reg == reg[IndexOfRoom(reg, roomId).value := Entry(roomId, Lookup(r.reg, roomId).value)])
  {
    if roomId == "" || playerName == "" then Step(reg, [])
    else
      var (reg1, room) := GetOrCreate(reg, roomId);
      var joined := Admit(room, socket, playerName);
      assert Lookup(reg, roomId).None? ==>
               Put(reg1, roomId, joined) == reg + [Entry(roomId, CreateRoom(roomId).(
                                              players := [Player(socket, playerName, false)],
                                              scores := map[socket := 0]))]
      by {
        if Lookup(reg, roomId).None? {
          assert joined.players == [Player(socket, playerName, false)];
          assert joined.scores == map[socket := 0];
          assert IndexOfRoom(reg1, roomId) == Some(|reg|);
          assert reg1[|reg| := Entry(roomId, joined)] == reg + [Entry(roomId, joined)];
        }
      }
      Step(Put(reg1, roomId, joined), [Outbound(ToRoom(roomId), RoomState(Serialize(joined)))])
  }

  /** `startGame`. Ignored for an unknown room. Otherwise the counters are
      reset and a turn starts; on a room with players and at least one round
      that is round 1 with the first player drawing. */
  function StartGame(reg: Registry, roomId: RoomId, pick: WordChoice): (r: Step)
    ensures Lookup(reg, roomId).None? ==> r == Step(reg, [])
    ensures Lookup(reg, roomId).Some? ==>
              var room := Lookup(reg, roomId).value;
              var t := StartNextTurn(room.(round := 0, currentDrawerIndex := 0), pick);
              && (forall k :: k != roomId ==> Lookup(r.reg, k) == Lookup(reg, k))
              && Lookup(r.reg, roomId) == Some(t.room)
              && r.out == t.out
              && (IndexOfRoom(reg, roomId).Some? ==>
                    r.reg == reg[IndexOfRoom(reg, roomId).value := Entry(roomId, t.room)])
              && (|room.players| > 0 && room.maxRounds > 0 ==>
                    && t.room.round == 1
                    && t.room.currentDrawerIndex == 0
                    && t.room.word == Some(WORDS[pick])
                    && r.out[|r.out| - 1] == Outbound(ToSocket(room.players[0].id), YourWord(WORDS[pick])))
  {
    match Lookup(reg, roomId)
    case None => Step(reg, [])
    case Some(room) =>
      var t := StartNextTurn(room.(round := 0, currentDrawerIndex := 0), pick);
      Step(Put(reg, roomId, t.room), t.out)
  }

  /** `nextTurn`, the manual skip. Ignored for an unknown room. Otherwise the
      drawer index moves one place on (wrapping to 0 past the end of the
      roster) and a turn starts, or the game ends after the last round. */
  function NextTurn(reg: Registry, roomId: RoomId, pick: WordChoice): (r: Step)
    ensures Lookup(reg, roomId).None? ==> r == Step(reg, [])
    ensures Lookup(reg, roomId).Some? ==>
              var room := Lookup(reg, roomId).value;
              var t := StartNextTurn(room.(currentDrawerIndex := room.currentDrawerIndex + 1), pick);
              && (forall k :: k != roomId ==> Lookup(r.reg, k) == Lookup(reg, k))
              && Lookup(r.reg, roomId) == Some(t.room)
              && r.out == t.out
              && (IndexOfRoom(reg, roomId).Some? ==>
                    r.reg == reg[IndexOfRoom(reg, roomId).value := Entry(roomId, t.room)])
              && (|room.players| > 0 && room.round + 1 <= room.maxRounds ==>
                    t.room.currentDrawerIndex ==
                      if room.currentDrawerIndex + 1 < |room.players| then room.currentDrawerIndex + 1 else 0)
              && (|room.players| > 0 && room.round == room.maxRounds ==>
                    && t.room.round == 0 && t.room.word == None && t.room.currentDrawerIndex == 0
                    && r.out == [Outbound(ToRoom(room.roomId), GameOver(room.scores))])
  {
    match Lookup(reg, roomId)
    case None => Step(reg, [])
    case Some(room) =>
      var t := StartNextTurn(room.(currentDrawerIndex := room.currentDrawerIndex + 1), pick);
      Step(Put(reg, roomId, t.room), t.out)
  }

  /** The comparison of `guessWord` on an already normalised guess: the room
      has a (non-empty) word, and the guess is non-empty and equals the
      lower-cased word. */
  predicate Matches(word: Option<string>, normalized: string) {
    word.Some? && word.value != "" && |normalized| > 0 && normalized == ToLower(word.value)
  }

  /** Whether a raw guess is correct for the active word. */
  predicate IsCorrect(word: Option<string>, guess: string) {
    Matches(word, Normalize(guess))
  }

  /** The room after the player at position `i` is credited with a correct
      guess: flagged as having guessed, 100 points more, nothing else changed. */
  function Credit(room: Room, i: nat): (r: Room)
    requires i < |room.players|
    ensures r == room.(players := r.players, scores := r.scores)
    ensures |r.players| == |room.players| && Ids(r.players) == Ids(room.players)
    ensures r.players[i] == room.players[i].(guessed := true)
    ensures forall k :: 0 <= k < |r.players| && k != i ==> r.players[k] == room.players[k]
    ensures var id := room.players[i].id;
              && r.scores.Keys == room.scores.Keys + {id}
              && r.scores[id] == (if id in room.scores then room.scores[id] else 0) + 100
              && (forall k :: k in room.scores && k != id ==> r.scores[k] == room.scores[k])
  {
    var p := room.players[i];
    var ps := room.players[i := p.(guessed := true)];
    assert Ids(ps) == Ids(room.players);
    room.(players := ps,
          scores := room.scores[p.id := (if p.id in room.scores then room.scores[p.id] else 0) + 100])
  }

  /** What the room is told about a credited guess, in order: the chat line
      with the raw guess, `correctGuess` with the new ledger, and the new
      room state. */
  function Announcements(roomId: RoomId, p: Player, guess: string, credited: Room): seq<Outbound> {
    [Outbound(ToRoom(roomId), ChatMessage(p.id, p.name, guess)),
     Outbound(ToRoom(roomId), CorrectGuess(p.id, p.name, credited.scores)),
     Outbound(ToRoom(roomId), RoomState(Serialize(credited)))]
  }

  /** The part of `guessWord` after the sender `room.players[i]` was found
      and the guess normalised to `normalized`:
      the raw guess goes to the room as chat; a correct first guess this turn
      credits the sender, tells the room, and when every non-drawer has now
      guessed moves the drawer index on and starts the next turn. Any other
      guess changes nothing. */
  function Evaluate(reg: Registry, roomId: RoomId, room: Room, i: nat, guess: string,
                    normalized: string, pick: WordChoice): (r: Step)
    requires Lookup(reg, roomId) == Some(room) && i < |room.players|
    ensures var p := room.players[i];
            var chat := Outbound(ToRoom(roomId), ChatMessage(p.id, p.name, guess));
            && (forall k :: k != roomId ==> Lookup(r.reg, k) == Lookup(reg, k))
            && |r.out| > 0 && r.out[0] == chat
            && IndexOfRoom(reg, roomId).Some? && IndexOfRoom(reg, roomId).value < |r.reg|
            && r.reg == reg[IndexOfRoom(reg, roomId).value := Entry(roomId, r.reg[IndexOfRoom(reg, roomId).value].room)]
            && (!(Matches(room.word, normalized) && !p.guessed) ==> r == Step(reg, [chat]))
            && (Matches(room.word, normalized) && !p.guessed ==>
                  var s := Credit(room, i);
                  var head := Announcements(roomId, p, guess, s);
                  && (!AllGuessed(s) ==> Lookup(r.reg, roomId) == Some(s) && r.out == head)
                  && (AllGuessed(s) ==>
                        var t := StartNextTurn(s.(currentDrawerIndex := s.currentDrawerIndex + 1), pick);
                        Lookup(r.reg, roomId) == Some(t.room) && r.out == head + t.out))
  {
    var p := room.players[i];
    if Matches(room.word, normalized) && !p.guessed then
      var s := Credit(room, i);
      var head := Announcements(roomId, p, guess, s);
      if AllGuessed(s) then
        var t := StartNextTurn(s.(currentDrawerIndex := s.currentDrawerIndex + 1), pick);
        Step(Put(reg, roomId, t.room), head + t.out)
      else
        Step(Put(reg, roomId, s), head)
    else
      Step(reg, [Outbound(ToRoom(roomId), ChatMessage(p.id, p.name, guess))])
  }

  /** A guess that completes the set stores the room the next turn start
      leaves, and emits the announcements, then what that turn start emits. */
  lemma CompletingGuessOut(reg: Registry, roomId: RoomId, room: Room, i: nat, guess: string,
                           normalized: string, pick: WordChoice)
    requires Lookup(reg, roomId) == Some(room) && i < |room.players|
    requires Matches(room.word, normalized) && !room.players[i].guessed && AllGuessed(Credit(room, i))
    ensures var s := Credit(room, i);
            var t := StartNextTurn(s.(currentDrawerIndex := s.currentDrawerIndex + 1), pick);
            var r := Evaluate(reg, roomId, room, i, guess, normalized, pick);
            && Lookup(r.reg, roomId) == Some(t.room)
            && r.out == Announcements(roomId, room.players[i], guess, s) + t.out
  {
  }

  /** `guessWord`. Ignored for an unknown room, an empty guess or a sender not
      on the roster; otherwise the guess of the sender's first roster entry is
      evaluated. */
  function GuessWord(reg: Registry, socket: PlayerId, roomId: RoomId, guess: string,
                     pick: WordChoice): (r: Step)
    ensures (|| Lookup(reg, roomId).None? || guess == ""
             || socket !in Ids(Lookup(reg, roomId).value.players)) ==> r == Step(reg, [])
    ensures Lookup(reg, roomId).Some? && guess != "" && socket in Ids(Lookup(reg, roomId).value.players) ==>
              var room := Lookup(reg, roomId).value;
              r == Evaluate(reg, roomId, room, IndexOfPlayer(room.players, socket).value, guess,
                            Normalize(guess), pick)
  {
    match Lookup(reg, roomId)
    case None => Step(reg, [])
    case Some(room) =>
      if guess == "" then Step(reg, [])
      else match IndexOfPlayer(room.players, socket)
        case None => Step(reg, [])
        case Some(i) => Evaluate(reg, roomId, room, i, guess, Normalize(guess), pick)
  }

  /** `disconnect`. */
  function Disconnect(reg: Registry, socket: PlayerId): Step {
    RemovePlayerFromRooms(reg, socket)
  }

  /** An inbound event, with the outcome of the random word pick where the
      handler may start a turn. */
  datatype Action =
    | JoinRoom(socket: PlayerId, roomId: RoomId, playerName: string)
    | StartGameAction(roomId: RoomId, pick: WordChoice)
    | NextTurnAction(roomId: RoomId, pick: WordChoice)
    | GuessWordAction(socket: PlayerId, roomId: RoomId, guess: string, pick: WordChoice)
    | DisconnectAction(socket: PlayerId)

  function Dispatch(reg: Registry, a: Action): Step {
    match a
    case JoinRoom(socket, roomId, name) => Join(reg, socket, roomId, name)
    case StartGameAction(roomId, pick) => StartGame(reg, roomId, pick)
    case NextTurnAction(roomId, pick) => NextTurn(reg, roomId, pick)
    case GuessWordAction(socket, roomId, guess, pick) => GuessWord(reg, socket, roomId, guess, pick)
    case DisconnectAction(socket) => Disconnect(reg, socket)
  }

  /** Events handled one after another, each to completion; the emissions
      concatenated in order. */
  function Run(reg: Registry, actions: seq<Action>): Step
    decreases |actions|
  {
    if |actions| == 0 then Step(reg, [])
    else
      var s := Dispatch(reg, actions[0]);
      var t := Run(s.reg, actions[1..]);
      Step(t.reg, s.out + t.out)
  }

  /** Handling a sequence of events is handling a prefix, then the rest from
      where the prefix left the registry; the emissions concatenate. */
  lemma {:induction false} RunConcat(reg: Registry, a: seq<Action>, b: seq<Action>)
    ensures var first := Run(reg, a);
            var second := Run(first.reg, b);
            Run(reg, a + b) == Step(second.reg, first.out + second.out)
    decreases |a|
  {
    if |a| == 0 {
      assert a + b == b;
    } else {
      var s := Dispatch(reg, a[0]);
      assert (a + b)[0] == a[0] && (a + b)[1..] == a[1..] + b;
      RunConcat(s.reg, a[1..], b);
      var rest := Run(s.reg, a[1..]);
      var second := Run(rest.reg, b);
      assert s.out + (rest.out + second.out) == (s.out + rest.out) + second.out;
    }
  }

  /** The one room an event may change: the room it names, or for a
      disconnect the first room holding the socket. */
  function Touched(reg: Registry, a: Action): RoomId {
    if a.DisconnectAction? then
      match FirstRoomWith(reg, a.socket)
      case Some(i) => reg[i].id
      case None => ""
    else a.roomId
  }
}

=== FILE: invariants.dfy ===
/**
  The well-formedness invariant of the whole server: every room it holds
  keeps ledger keys equal to the roster's ids, a drawer index that points into
  the roster, a round within bounds, and a word exactly while a game is on;
  every handler, and so every sequence of events, preserves it. On a server
  where it holds, each event changes and speaks to at most one room.
 */
module Invariants {
  import opened Text
  import opened Rooms
  import opened Events
  import opened Turns
  import opened RoomRegistry
  import opened Handlers

  /** The room registered under `k`, if any, is well formed and knows its key. */
  ghost predicate HoldsAt(reg: Registry, k: RoomId) {
    Lookup(reg, k).Some? ==> Lookup(reg, k).value.roomId == k && WellFormed(Lookup(reg, k).value)
  }

  ghost predicate RegistryOk(reg: Registry) {
    forall k :: HoldsAt(reg, k)
  }

  /** A registry that differs from a good one only at `id`, and is good there. */
  lemma {:induction false} OkExceptAt(reg: Registry, reg': Registry, id: RoomId)
    requires RegistryOk(reg) && HoldsAt(reg', id)
    requires forall k :: k != id ==> Lookup(reg', k) == Lookup(reg, k)
    ensures RegistryOk(reg')
  {
    forall k
      ensures HoldsAt(reg', k)
    {
      if k != id {
        assert HoldsAt(reg, k);
      }
    }
  }

  lemma EmptyRegistryOk()
    ensures RegistryOk([])
  {
  }

  /** `createRoom`: a fresh room holds nobody and nothing has been played in
      it (no word, empty ledger, round 0 of five, drawer index 0); once its
      first player is admitted it is well formed. */
  lemma FreshRoomFirstJoinWellFormed(id: RoomId, socket: PlayerId, name: string)
    ensures var c := CreateRoom(id);
            && c.roomId == id && c.players == [] && c.scores == map[] && c.word.None?
            && c.round == 0 && c.currentDrawerIndex == 0 && c.maxRounds == MAX_ROUNDS
            && WellFormed(Admit(c, socket, name))
  {
    var r := Admit(CreateRoom(id), socket, name);
    assert Ids(r.players) == [socket];
  }

  /** Rosters with the same ids have the same distinctness. */
  lemma SameIdsSameUniqueness(a: seq<Player>, b: seq<Player>)
    requires Ids(a) == Ids(b)
    ensures UniqueIds(a) <==> UniqueIds(b)
  {
    assert |a| == |Ids(a)| == |b|;
    assert forall i :: 0 <= i < |a| ==> a[i].id == Ids(a)[i] == b[i].id;
  }

  /** `startNextTurn` leads to a well-formed room from any room with players,
      distinct ids, a matching ledger and a round within bounds, whatever its
      drawer index and word. */
  lemma TurnKeepsWellFormed(room: Room, pick: WordChoice)
    requires |room.players| > 0 && UniqueIds(room.players) && LedgerMatchesRoster(room)
    requires room.maxRounds == MAX_ROUNDS && room.round <= room.maxRounds
    ensures WellFormed(StartNextTurn(room, pick).room)
    ensures StartNextTurn(room, pick).room.roomId == room.roomId
  {
    var t := StartNextTurn(room, pick);
    if room.round + 1 <= room.maxRounds {
      SameIdsSameUniqueness(t.room.players, room.players);
      assert WORDS[pick] in WORDS;
    }
  }

  lemma {:induction false} JoinKeepsOk(reg: Registry, socket: PlayerId, roomId: RoomId, name: string)
    requires RegistryOk(reg)
    ensures RegistryOk(Join(reg, socket, roomId, name).reg)
  {
    var r := Join(reg, socket, roomId, name);
    if roomId != "" && name != "" {
      match Lookup(reg, roomId)
      case None =>
        var created := CreateRoom(roomId).(players := [Player(socket, name, false)],
                                         scores := map[socket := 0]);
        assert r.reg[|reg|] == Entry(roomId, created);
        assert Lookup(r.reg, roomId) == Some(created);
        assert Ids(created.players) == [socket];
        assert HoldsAt(r.reg, roomId);
        OkExceptAt(reg, r.reg, roomId);
      case Some(room) =>
        assert HoldsAt(reg, roomId);
        if socket !in Ids(room.players) {
          var joined := Admit(room, socket, name);
          AppendIds(room.players, Player(socket, name, false));
          assert UniqueIds(joined.players);
          assert LedgerMatchesRoster(joined);
        }
        assert HoldsAt(r.reg, roomId);
        OkExceptAt(reg, r.reg, roomId);
    }
  }

  lemma {:induction false} StartGameKeepsOk(reg: Registry, roomId: RoomId, pick: WordChoice)
    requires RegistryOk(reg)
    ensures RegistryOk(StartGame(reg, roomId, pick).reg)
  {
    var r := StartGame(reg, roomId, pick);
    if Lookup(reg, roomId).Some? {
      var room := Lookup(reg, roomId).value;
      assert HoldsAt(reg, roomId);
      TurnKeepsWellFormed(room.(round := 0, currentDrawerIndex := 0), pick);
      assert HoldsAt(r.reg, roomId);
      OkExceptAt(reg, r.reg, roomId);
    }
  }

  lemma {:induction false} NextTurnKeepsOk(reg: Registry, roomId: RoomId, pick: WordChoice)
    requires RegistryOk(reg)
    ensures RegistryOk(NextTurn(reg, roomId, pick).reg)
  {
    var r := NextTurn(reg, roomId, pick);
    if Lookup(reg, roomId).Some? {
      var room := Lookup(reg, roomId).value;
      assert HoldsAt(reg, roomId);
      TurnKeepsWellFormed(room.(currentDrawerIndex := room.currentDrawerIndex + 1), pick);
      assert HoldsAt(r.reg, roomId);
      OkExceptAt(reg, r.reg, roomId);
    }
  }

  /** Crediting a roster member keeps a room well formed. */
  lemma CreditKeepsWellFormed(room: Room, i: nat)
    requires WellFormed(room) && i < |room.players|
    ensures WellFormed(Credit(room, i))
  {
    var s := Credit(room, i);
    SameIdsSameUniqueness(s.players, room.players);
    assert room.players[i].id == Ids(room.players)[i];
  }

  lemma {:induction false} EvaluateKeepsOk(reg: Registry, roomId: RoomId, room: Room, i: nat,
                                           guess: string, normalized: string, pick: WordChoice)
    requires RegistryOk(reg) && Lookup(reg, roomId) == Some(room) && i < |room.players|
    ensures RegistryOk(Evaluate(reg, roomId, room, i, guess, normalized, pick).reg)
  {
    var r := Evaluate(reg, roomId, room, i, guess, normalized, pick);
    assert HoldsAt(reg, roomId);
    if Matches(room.word, normalized) && !room.players[i].guessed {
      var s := Credit(room, i);
      CreditKeepsWellFormed(room, i);
      if AllGuessed(s) {
        TurnKeepsWellFormed(s.(currentDrawerIndex := s.currentDrawerIndex + 1), pick);
      }
      assert HoldsAt(r.reg, roomId);
      OkExceptAt(reg, r.reg, roomId);
    }
  }

  lemma {:induction false} GuessWordKeepsOk(reg: Registry, socket: PlayerId, roomId: RoomId,
                                            guess: string, pick: WordChoice)
    requires RegistryOk(reg)
    ensures RegistryOk(GuessWord(reg, socket, roomId, guess, pick).reg)
  {
    if Lookup(reg, roomId).Some? && guess != "" && socket in Ids(Lookup(reg, roomId).value.players) {
      var room := Lookup(reg, roomId).value;
      EvaluateKeepsOk(reg, roomId, room, IndexOfPlayer(room.players, socket).value, guess,
                      Normalize(guess), pick);
    }
  }

  lemma {:induction false} DisconnectKeepsOk(reg: Registry, socket: PlayerId)
    requires RegistryOk(reg)
    ensures RegistryOk(Disconnect(reg, socket).reg)
  {
    var r := Disconnect(reg, socket);
    match FirstRoomWith(reg, socket)
    case None =>
    case Some(i) =>
      var e := reg[i];
      assert Lookup(reg, e.id) == Some(e.room);
      assert HoldsAt(reg, e.id);
      if |e.room.players| > 1 {
        var left := Without(e.room, socket);
        assert LedgerMatchesRoster(left);
      }
      assert HoldsAt(r.reg, e.id);
      OkExceptAt(reg, r.reg, e.id);
  }

  /** On a well-formed server a disconnect takes the socket off the roster
      and out of the ledger of the first room that held it, removes that room
      exactly when the socket was its last player, and changes no other room. */
  lemma DisconnectRemovesPlayer(reg: Registry, socket: PlayerId)
    requires RegistryOk(reg)
    ensures var r := Disconnect(reg, socket);
            && (FirstRoomWith(reg, socket).None? ==> r == Step(reg, []))
            && (FirstRoomWith(reg, socket).Some? ==>
                  var e := reg[FirstRoomWith(reg, socket).value];
                  && (forall k :: k != e.id ==> Lookup(r.reg, k) == Lookup(reg, k))
                  && (Lookup(r.reg, e.id).None? <==> |e.room.players| == 1)
                  && (Lookup(r.reg, e.id).Some? ==>
                        && socket !in Ids(Lookup(r.reg, e.id).value.players)
                        && socket !in Lookup(r.reg, e.id).value.scores))
  {
    match FirstRoomWith(reg, socket)
    case None =>
    case Some(i) =>
      var e := reg[i];
      assert Lookup(reg, e.id) == Some(e.room);
      assert HoldsAt(reg, e.id);
  }

  lemma DispatchKeepsOk(reg: Registry, a: Action)
    requires RegistryOk(reg)
    ensures RegistryOk(Dispatch(reg, a).reg)
  {
    match a
    case JoinRoom(socket, roomId, name) => JoinKeepsOk(reg, socket, roomId, name);
    case StartGameAction(roomId, pick) => StartGameKeepsOk(reg, roomId, pick);
    case NextTurnAction(roomId, pick) => NextTurnKeepsOk(reg, roomId, pick);
    case GuessWordAction(socket, roomId, guess, pick) => GuessWordKeepsOk(reg, socket, roomId, guess, pick);
    case DisconnectAction(socket) => DisconnectKeepsOk(reg, socket);
  }

  /** Every emission of `out` to a room channel goes to the channel of `k`. */
  predicate ChannelOnly(out: seq<Outbound>, k: RoomId) {
    forall j :: 0 <= j < |out| && out[j].to.ToRoom? ==> out[j].to.roomId == k
  }

  /** A turn start stays in the channel of the room it starts in. */
  lemma TurnStaysInChannel(room: Room, pick: WordChoice, head: seq<Outbound>)
    requires ChannelOnly(head, room.roomId)
    ensures ChannelOnly(head + StartNextTurn(room, pick).out, room.roomId)
  {
    var out := head + StartNextTurn(room, pick).out;
    forall j | 0 <= j < |out| && out[j].to.ToRoom?
      ensures out[j].to.roomId == room.roomId
    {
      if j >= |head| {
        assert out[j] == StartNextTurn(room, pick).out[j - |head|];
      }
    }
  }

  /** A guess that completes the set speaks on its room's channel only. */
  lemma CompletingGuessStaysInChannel(reg: Registry, roomId: RoomId, room: Room, i: nat, guess: string,
                                      normalized: string, pick: WordChoice)
    requires Lookup(reg, roomId) == Some(room) && room.roomId == roomId && i < |room.players|
    requires Matches(room.word, normalized) && !room.players[i].guessed && AllGuessed(Credit(room, i))
    ensures ChannelOnly(Evaluate(reg, roomId, room, i, guess, normalized, pick).out, roomId)
  {
    var s := Credit(room, i);
    var next := s.(currentDrawerIndex := s.currentDrawerIndex + 1);
    CompletingGuessOut(reg, roomId, room, i, guess, normalized, pick);
    TurnStaysInChannel(next, pick, Announcements(roomId, room.players[i], guess, s));
  }

  lemma EvaluateStaysInChannel(reg: Registry, roomId: RoomId, room: Room, i: nat, guess: string,
                               normalized: string, pick: WordChoice)
    requires Lookup(reg, roomId) == Some(room) && room.roomId == roomId && i < |room.players|
    ensures ChannelOnly(Evaluate(reg, roomId, room, i, guess, normalized, pick).out, roomId)
  {
    var p := room.players[i];
    if Matches(room.word, normalized) && !p.guessed && AllGuessed(Credit(room, i)) {
      CompletingGuessStaysInChannel(reg, roomId, room, i, guess, normalized, pick);
    } else if Matches(room.word, normalized) && !p.guessed {
      assert ChannelOnly(Announcements(roomId, p, guess, Credit(room, i)), roomId);
    }
  }

  /** `startGame` and `nextTurn` on a well-formed server change only their
      room and speak only on its channel. */
  lemma TurnHandlersStayInRoom(reg: Registry, roomId: RoomId, pick: WordChoice)
    requires RegistryOk(reg)
    ensures var r := StartGame(reg, roomId, pick);
            && (forall k :: k != roomId ==> Lookup(r.reg, k) == Lookup(reg, k))
            && ChannelOnly(r.out, roomId)
    ensures var r := NextTurn(reg, roomId, pick);
            && (forall k :: k != roomId ==> Lookup(r.reg, k) == Lookup(reg, k))
            && ChannelOnly(r.out, roomId)
  {
    if Lookup(reg, roomId).Some? {
      assert HoldsAt(reg, roomId);
      var room := Lookup(reg, roomId).value;
      TurnStaysInChannel(room.(round := 0, currentDrawerIndex := 0), pick, []);
      assert [] + StartGame(reg, roomId, pick).out == StartGame(reg, roomId, pick).out;
      TurnStaysInChannel(room.(currentDrawerIndex := room.currentDrawerIndex + 1), pick, []);
      assert [] + NextTurn(reg, roomId, pick).out == NextTurn(reg, roomId, pick).out;
    }
  }

  /** `guessWord` on a well-formed server changes only its room and speaks
      only on its channel. */
  lemma GuessStaysInRoom(reg: Registry, socket: PlayerId, roomId: RoomId, guess: string, pick: WordChoice)
    requires RegistryOk(reg)
    ensures var r := GuessWord(reg, socket, roomId, guess, pick);
            && (forall k :: k != roomId ==> Lookup(r.reg, k) == Lookup(reg, k))
            && ChannelOnly(r.out, roomId)
  {
    if Lookup(reg, roomId).Some? && guess != "" && socket in Ids(Lookup(reg, roomId).value.players) {
      assert HoldsAt(reg, roomId);
      var room := Lookup(reg, roomId).value;
      EvaluateStaysInChannel(reg, roomId, room, IndexOfPlayer(room.players, socket).value, guess,
                             Normalize(guess), pick);
    }
  }

  /** On a well-formed server every event changes at most one room, and
      every emission to a room channel goes to that room. */
  lemma DispatchTouchesOneRoom(reg: Registry, a: Action)
    requires RegistryOk(reg)
    ensures var r := Dispatch(reg, a);
            && (forall k :: k != Touched(reg, a) ==> Lookup(r.reg, k) == Lookup(reg, k))
            && ChannelOnly(r.out, Touched(reg, a))
  {
    match a
    case JoinRoom(socket, roomId, name) =>
    case StartGameAction(roomId, pick) =>
      TurnHandlersStayInRoom(reg, roomId, pick);
    case NextTurnAction(roomId, pick) =>
      TurnHandlersStayInRoom(reg, roomId, pick);
    case GuessWordAction(socket, roomId, guess, pick) =>
      GuessStaysInRoom(reg, socket, roomId, guess, pick);
    case DisconnectAction(socket) =>
  }

  /** A join appends the key of a room it creates and otherwise keeps the keys. */
  lemma JoinKeepsRoomOrder(reg: Registry, socket: PlayerId, roomId: RoomId, name: string)
    ensures Keys(Join(reg, socket, roomId, name).reg) ==
              if roomId != "" && name != "" && Lookup(reg, roomId).None? then Keys(reg) + [roomId]
              else Keys(reg)
  {
    var r := Join(reg, socket, roomId, name);
    if roomId != "" && name != "" {
      if Lookup(reg, roomId).None? {
        KeysAfterAppend(reg, r.reg[|reg|]);
        assert r.reg == reg + [r.reg[|reg|]];
      } else {
        KeysAfterSet(reg, IndexOfRoom(reg, roomId).value, Entry(roomId, Lookup(r.reg, roomId).value));
      }
    }
  }

  /** `startGame` and `nextTurn` keep the keys. */
  lemma TurnHandlersKeepRoomOrder(reg: Registry, roomId: RoomId, pick: WordChoice)
    ensures Keys(StartGame(reg, roomId, pick).reg) == Keys(reg)
    ensures Keys(NextTurn(reg, roomId, pick).reg) == Keys(reg)
  {
    if Lookup(reg, roomId).Some? {
      var i := IndexOfRoom(reg, roomId).value;
      KeysAfterSet(reg, i, Entry(roomId, Lookup(StartGame(reg, roomId, pick).reg, roomId).value));
      KeysAfterSet(reg, i, Entry(roomId, Lookup(NextTurn(reg, roomId, pick).reg, roomId).value));
    }
  }

  /** An evaluated guess keeps the keys. */
  lemma EvaluateKeepsRoomOrder(reg: Registry, roomId: RoomId, room: Room, i: nat, guess: string,
                               normalized: string, pick: WordChoice)
    requires Lookup(reg, roomId) == Some(room) && i < |room.players|
    ensures Keys(Evaluate(reg, roomId, room, i, guess, normalized, pick).reg) == Keys(reg)
  {
    var r := Evaluate(reg, roomId, room, i, guess, normalized, pick);
    var k := IndexOfRoom(reg, roomId).value;
    KeysAfterSet(reg, k, Entry(roomId, r.reg[k].room));
  }

  /** A disconnect removes the key of a room it empties and otherwise keeps the keys. */
  lemma DisconnectKeepsRoomOrder(reg: Registry, socket: PlayerId)
    ensures FirstRoomWith(reg, socket).Some? && |reg[FirstRoomWith(reg, socket).value].room.players| == 1 ==>
              var i := FirstRoomWith(reg, socket).value;
              Keys(Disconnect(reg, socket).reg) == Keys(reg)[..i] + Keys(reg)[i + 1..]
    ensures FirstRoomWith(reg, socket).None? || |reg[FirstRoomWith(reg, socket).value].room.players| != 1 ==>
              Keys(Disconnect(reg, socket).reg) == Keys(reg)
  {
    if FirstRoomWith(reg, socket).Some? {
      var i := FirstRoomWith(reg, socket).value;
      var e := reg[i];
      if |e.room.players| == 1 {
        assert IndexOfRoom(reg, e.id) == Some(i);
        KeysAfterRemove(reg, i);
      } else {
        KeysAfterSet(reg, i, Entry(e.id, Without(e.room, socket)));
      }
    }
  }

  /** Every event keeps the registry's insertion order, which decides the
      room a later disconnect touches: a join to an unknown room appends its
      key, a disconnect that empties a room removes that room's key with the
      others in order, and every other event leaves the keys as they were. */
  lemma DispatchKeepsRoomOrder(reg: Registry, a: Action)
    ensures var ks := Keys(reg);
            var ks' := Keys(Dispatch(reg, a).reg);
            && (a.JoinRoom? && a.roomId != "" && a.playerName != "" && Lookup(reg, a.roomId).None? ==>
                  ks' == ks + [a.roomId])
            && (a.DisconnectAction? && FirstRoomWith(reg, a.socket).Some?
                && |reg[FirstRoomWith(reg, a.socket).value].room.players| == 1 ==>
                  var i := FirstRoomWith(reg, a.socket).value; ks' == ks[..i] + ks[i + 1..])
            && (!(a.JoinRoom? && a.roomId != "" && a.playerName != "" && Lookup(reg, a.roomId).None?)
                && !(a.DisconnectAction? && FirstRoomWith(reg, a.socket).Some?
                     && |reg[FirstRoomWith(reg, a.socket).value].room.players| == 1) ==>
                  ks' == ks)
  {
    match a
    case JoinRoom(socket, roomId, name) =>
      JoinKeepsRoomOrder(reg, socket, roomId, name);
    case StartGameAction(roomId, pick) =>
      TurnHandlersKeepRoomOrder(reg, roomId, pick);
    case NextTurnAction(roomId, pick) =>
      TurnHandlersKeepRoomOrder(reg, roomId, pick);
    case GuessWordAction(socket, roomId, guess, pick) =>
      if Lookup(reg, roomId).Some? && guess != "" && socket in Ids(Lookup(reg, roomId).value.players) {
        var room := Lookup(reg, roomId).value;
        EvaluateKeepsRoomOrder(reg, roomId, room, IndexOfPlayer(room.players, socket).value, guess,
                               Normalize(guess), pick);
      }
    case DisconnectAction(socket) =>
      DisconnectKeepsRoomOrder(reg, socket);
  }

  /** Every room of the server stays well formed across any sequence of events. */
  lemma {:induction false} RunKeepsOk(reg: Registry, actions: seq<Action>)
    requires RegistryOk(reg)
    ensures RegistryOk(Run(reg, actions).reg)
    decreases |actions|
  {
    if |actions| > 0 {
      DispatchKeepsOk(reg, actions[0]);
      RunKeepsOk(Dispatch(reg, actions[0]).reg, actions[1..]);
    }
  }

  /** From an empty registry, after any sequence of joins, starts, skips, guesses
      and disconnects, every room's ledger keys are exactly its players' ids,
      its drawer index points into its roster and its round is within
      `[0, maxRounds]`. */
  lemma ReachableRoomsWellFormed(actions: seq<Action>, k: RoomId)
    ensures var reg := Run([], actions).reg;
            Lookup(reg, k).Some? ==>
              var room := Lookup(reg, k).value;
              && room.scores.Keys == (set id | id in Ids(room.players))
              && 0 <= room.currentDrawerIndex < |room.players|
              && 0 <= room.round <= room.maxRounds == MAX_ROUNDS
              && (room.word.Some? <==> room.round > 0)
  {
    EmptyRegistryOk();
    RunKeepsOk([], actions);
    assert HoldsAt(Run([], actions).reg, k);
  }
}

=== FILE: registry.dfy ===
/**
  The room registry: a JavaScript `Map` from room id to room, kept as a
  sequence of entries in insertion order (the order `rooms.entries()` visits
  them). Setting an existing key keeps its position; a new key goes last.
 */
module RoomRegistry {
  import opened Rooms
  import opened Events

  datatype Entry = Entry(id: RoomId, room: Room)

  predicate KeysUnique(s: seq<Entry>) {
    forall i, j :: 0 <= i < j < |s| ==> s[i].id != s[j].id
  }

  type Registry = s: seq<Entry> | KeysUnique(s)

  /** A registry after a handler ran, with what the handler emitted. */
  datatype Step = Step(reg: Registry, out: seq<Outbound>)

  /** The keys in insertion order, the order `rooms.entries()` visits them. */
  function Keys(reg: Registry): seq<RoomId> {
    seq(|reg|, i requires 0 <= i < |reg| => reg[i].id)
  }

  /** Replacing the room of an entry in place leaves the key order as it was. */
  lemma KeysAfterSet(reg: Registry, i: nat, e: Entry)
    requires i < |reg| && reg[i].id == e.id
    ensures KeysUnique(reg[i := e]) && Keys(reg[i := e]) == Keys(reg)
  {
  }

  /** Appending an entry appends its key. */
  lemma KeysAfterAppend(reg: Registry, e: Entry)
    requires KeysUnique(reg + [e])
    ensures Keys(reg + [e]) == Keys(reg) + [e.id]
  {
  }

  /** Removing the entry at `i` removes the key at `i`, the others in order. */
  lemma KeysAfterRemove(reg: Registry, i: nat)
    requires i < |reg|
    ensures KeysUnique(reg[..i] + reg[i + 1..])
    ensures Keys(reg[..i] + reg[i + 1..]) == Keys(reg)[..i] + Keys(reg)[i + 1..]
  {
    var r := reg[..i] + reg[i + 1..];
    assert forall a :: 0 <= a < |r| ==> r[a] == if a < i then reg[a] else reg[a + 1];
  }

  /** The position of the entry for `id`, if there is one. */
  function IndexOfRoom(reg: Registry, id: RoomId): (r: Option<nat>)
    ensures r.Some? ==> r.value < |reg| && reg[r.value].id == id
    ensures r.None? ==> forall i :: 0 <= i < |reg| ==> reg[i].id != id
  {
    if |reg| == 0 then None
    else if reg[0].id == id then Some(0)
    else match IndexOfRoom(reg[1..], id)
      case None => None
      case Some(k) => Some(k + 1)
  }

  /** `rooms.get(id)`. */
  function Lookup(reg: Registry, id: RoomId): (r: Option<Room>)
    ensures forall i :: 0 <= i < |reg| && reg[i].id == id ==> r == Some(reg[i].room)
    ensures r.None? <==> forall i :: 0 <= i < |reg| ==> reg[i].id != id
  {
    match IndexOfRoom(reg, id)
    case None => None
    case Some(i) => Some(reg[i].room)
  }

  /** `rooms.set(id, room)`: the entry for `id` now holds `room`, every other
      key is unaffected, an existing key keeps its position and a new key is
      appended. */
  function Put(reg: Registry, id: RoomId, room: Room): (r: Registry)
    ensures Lookup(r, id) == Some(room)
    ensures forall k :: k != id ==> Lookup(r, k) == Lookup(reg, k)
    ensures Lookup(reg, id).Some? ==>
              |r| == |reg| && forall i :: 0 <= i < |reg| ==> r[i].id == reg[i].id
    ensures Lookup(reg, id).None? ==> r == reg + [Entry(id, room)]
    ensures Lookup(reg, id) == Some(room) ==> r == reg
    ensures IndexOfRoom(reg, id).Some? ==> r == reg[IndexOfRoom(reg, id).value := Entry(id, room)]
  {
    match IndexOfRoom(reg, id)
    case Some(i) =>
      var r := reg[i := Entry(id, room)];
      assert KeysUnique(r);
      assert Lookup(r, id) == Some(r[i].room);
      assert forall k :: k != id ==> Lookup(r, k) == Lookup(reg, k) by {
        forall k | k != id
          ensures Lookup(r, k) == Lookup(reg, k)
        {
          if j :| 0 <= j < |reg| && reg[j].id == k {
            assert r[j] == reg[j];
          }
        }
      }
      r
    case None =>
      var r := reg + [Entry(id, room)];
      assert KeysUnique(r);
      assert r[|reg|] == Entry(id, room);
      assert Lookup(r, id) == Some(r[|reg|].room);
      assert forall k :: k != id ==> Lookup(r, k) == Lookup(reg, k) by {
        forall k | k != id
          ensures Lookup(r, k) == Lookup(reg, k)
        {
          if j :| 0 <= j < |reg| && reg[j].id == k {
            assert r[j] == reg[j];
          }
        }
      }
      r
  }

  /** The registry without its entry at position `i`, the others in order. */
  function RemoveEntry(reg: Registry, i: nat): (r: Registry)
    requires i < |reg|
    ensures |r| == |reg| - 1
    ensures forall a :: 0 <= a < |r| ==> r[a] == if a < i then reg[a] else reg[a + 1]
  {
    var r := reg[..i] + reg[i + 1..];
    assert forall a :: 0 <= a < |r| ==> r[a] == if a < i then reg[a] else reg[a + 1];
    r
  }

  /** Removing the entry at `i` leaves every other key's room where it was. */
  lemma RemoveEntryKeeps(reg: Registry, i: nat, k: RoomId)
    requires i < |reg| && reg[i].id != k
    ensures Lookup(RemoveEntry(reg, i), k) == Lookup(reg, k)
  {
    var r := RemoveEntry(reg, i);
    if j :| 0 <= j < |reg| && reg[j].id == k {
      if j < i {
        assert r[j] == reg[j];
      } else {
        assert r[j - 1] == reg[j];
      }
    }
  }

  /** `rooms.delete(id)`: the entry for `id` is gone, the others keep their
      relative order. */
  function Delete(reg: Registry, id: RoomId): (r: Registry)
    ensures Lookup(r, id) == None
    ensures forall k :: k != id ==> Lookup(r, k) == Lookup(reg, k)
    ensures forall e :: e in r <==> e in reg && e.id != id
    ensures IndexOfRoom(reg, id).None? ==> r == reg
    ensures IndexOfRoom(reg, id).Some? ==>
              var i := IndexOfRoom(reg, id).value; r == reg[..i] + reg[i + 1..]
  {
    match IndexOfRoom(reg, id)
    case None => reg
    case Some(i) =>
      var r := RemoveEntry(reg, i);
      assert forall k :: k != id ==> Lookup(r, k) == Lookup(reg, k) by {
        forall k | k != id
          ensures Lookup(r, k) == Lookup(reg, k)
        {
          RemoveEntryKeeps(reg, i, k);
        }
      }
      r
  }

  /** `getOrCreateRoom`: the room registered under `id`, or a fresh room
      registered (last) under `id`. */
  function GetOrCreate(reg: Registry, id: RoomId): (r: (Registry, Room))
    ensures Lookup(r.0, id) == Some(r.1)
    ensures Lookup(reg, id).Some? ==> r == (reg, Lookup(reg, id).value)
    ensures Lookup(reg, id).None? ==>
              r.1 == CreateRoom(id) && r.0 == reg + [Entry(id, CreateRoom(id))]
  {
    match Lookup(reg, id)
    case Some(room) => (reg, room)
    case None => (Put(reg, id, CreateRoom(id)), CreateRoom(id))
  }

  /** The position of the first room, in registry order, whose roster holds `pid`. */
  function FirstRoomWith(reg: Registry, pid: PlayerId): (r: Option<nat>)
    ensures r.Some? ==> r.value < |reg| && pid in Ids(reg[r.value].room.players)
    ensures r.Some? ==> forall i :: 0 <= i < r.value ==> pid !in Ids(reg[i].room.players)
    ensures r.None? ==> forall i :: 0 <= i < |reg| ==> pid !in Ids(reg[i].room.players)
  {
    if |reg| == 0 then None
    else if pid in Ids(reg[0].room.players) then Some(0)
    else match FirstRoomWith(reg[1..], pid)
      case None => None
      case Some(k) => Some(k + 1)
  }

  /** The room left behind when `pid` leaves it: the roster without its first
      entry for `pid`, the ledger without `pid`, and a drawer index reset to 0
      when it no longer points into the roster. */
  function Without(room: Room, pid: PlayerId): (r: Room)
    requires pid in Ids(room.players)
    ensures r.roomId == room.roomId && r.round == room.round && r.word == room.word
    ensures r.maxRounds == room.maxRounds
    ensures r.scores.Keys == room.scores.Keys - {pid}
    ensures forall k :: k in r.scores ==> r.scores[k] == room.scores[k]
    ensures exists j :: 0 <= j < |room.players| && room.players[j].id == pid
                        && (forall k :: 0 <= k < j ==> room.players[k].id != pid)
                        && r.players == room.players[..j] + room.players[j + 1..]
    ensures |r.players| == |room.players| - 1
    ensures room.currentDrawerIndex < |r.players| ==>
              r.currentDrawerIndex == room.currentDrawerIndex
    ensures room.currentDrawerIndex >= |r.players| ==> r.currentDrawerIndex == 0
    ensures |r.players| > 0 ==> r.currentDrawerIndex < |r.players|
    ensures UniqueIds(room.players) ==>
              UniqueIds(r.players)
              && (set id | id in Ids(r.players)) == (set id | id in Ids(room.players)) - {pid}
  {
    var j := IndexOfPlayer(room.players, pid).value;
    var rest := RemoveAt(room.players, j);
    assert rest == room.players[..j] + room.players[j + 1..];
    assert UniqueIds(room.players) ==>
             UniqueIds(rest)
             && (set id | id in Ids(rest)) == (set id | id in Ids(room.players)) - {pid}
    by {
      if UniqueIds(room.players) {
        RemoveAtIds(room.players, j);
      }
    }
    room.(players := rest,
          scores := room.scores - {pid},
          currentDrawerIndex := if room.currentDrawerIndex >= |rest| then 0 else room.currentDrawerIndex)
  }

  /** `removePlayerFromRooms`: only the first room holding `pid` is touched.
      That room is deleted when `pid` was its last player; otherwise it is
      replaced by `Without(room, pid)` and its members are sent the new state. */
  function RemovePlayerFromRooms(reg: Registry, pid: PlayerId): (r: Step)
    ensures FirstRoomWith(reg, pid).None? ==> r == Step(reg, [])
    ensures FirstRoomWith(reg, pid).Some? ==>
              var e := reg[FirstRoomWith(reg, pid).value];
              && (forall k :: k != e.id ==> Lookup(r.reg, k) == Lookup(reg, k))
              && (|e.room.players| == 1 ==> Lookup(r.reg, e.id) == None && r.out == [] && r.reg == Delete(reg, e.id))
              && (|e.room.players| > 1 ==>
                    && Lookup(r.reg, e.id) == Some(Without(e.room, pid))
                    && r.reg == reg[FirstRoomWith(reg, pid).value := Entry(e.id, Without(e.room, pid))]
                    && r.out == [Outbound(ToRoom(e.id), RoomState(Serialize(Without(e.room, pid))))])
  {
    match FirstRoomWith(reg, pid)
    case None => Step(reg, [])
    case Some(i) =>
      var e := reg[i];
      var room := Without(e.room, pid);
      if |room.players| == 0 then
        Step(Delete(reg, e.id), [])
      else
        Step(Put(reg, e.id, room), [Outbound(ToRoom(e.id), RoomState(Serialize(room)))])
  }
}

=== FILE: rooms.dfy ===
/**
  The per-room state the game server keeps: an ordered roster, the index of
  the current drawer, the round counter, the active word and the score ledger.
 */
module Rooms {

  /** A value or nothing; stands for JavaScript's `null`/`undefined`. */
  datatype Option<T> = None | Some(value: T)

  /** Per-connection identifier issued by the transport; also the score key. */
  type PlayerId = string
  type RoomId = string

  /** Number of turns in one game. */
  const MAX_ROUNDS: nat := 5

  /** The fixed list the secret word is drawn from. */
  const WORDS: seq<string> :=
    ["cat", "dog", "house", "tree", "car", "sun", "moon", "phone", "pizza", "star"]

  /** The outcome of the random pick: an index into `WORDS`. */
  type WordChoice = i: nat | i < |WORDS|

  datatype Player = Player(id: PlayerId, name: string, guessed: bool)

  datatype Room = Room(
    roomId: RoomId,
    players: seq<Player>,
    currentDrawerIndex: nat,
    word: Option<string>,
    scores: map<PlayerId, nat>,
    round: nat,
    maxRounds: nat)

  /** The state of a room nobody has played in yet. */
  function CreateRoom(roomId: RoomId): Room {
    Room(roomId, [], 0, None, map[], 0, MAX_ROUNDS)
  }

  /** The roster's identifiers, in roster order. */
  function Ids(ps: seq<Player>): seq<PlayerId> {
    seq(|ps|, i requires 0 <= i < |ps| => ps[i].id)
  }

  predicate UniqueIds(ps: seq<Player>) {
    forall i, j :: 0 <= i < j < |ps| ==> ps[i].id != ps[j].id
  }

  /** `players.findIndex(p => p.id === id)`: the first position holding `id`. */
  function IndexOfPlayer(ps: seq<Player>, id: PlayerId): (r: Option<nat>)
    ensures r.Some? ==> r.value < |ps| && ps[r.value].id == id
    ensures r.Some? ==> forall k :: 0 <= k < r.value ==> ps[k].id != id
    ensures r.None? <==> id !in Ids(ps)
  {
    if |ps| == 0 then None
    else if ps[0].id == id then assert Ids(ps)[0] == id; Some(0)
    else
      assert Ids(ps) == [ps[0].id] + Ids(ps[1..]);
      match IndexOfPlayer(ps[1..], id)
      case None => None
      case Some(k) => Some(k + 1)
  }

  /** The roster without the entry at position `j`. */
  function RemoveAt(ps: seq<Player>, j: nat): (r: seq<Player>)
    requires j < |ps|
    ensures |r| == |ps| - 1
    ensures forall k :: 0 <= k < j ==> r[k] == ps[k]
    ensures forall k :: j <= k < |r| ==> r[k] == ps[k + 1]
  {
    ps[..j] + ps[j + 1..]
  }

  /** The keys of the ledger are exactly the identifiers on the roster. */
  ghost predicate LedgerMatchesRoster(room: Room) {
    room.scores.Keys == (set id | id in Ids(room.players))
  }

  /** What every room held by the server satisfies between two events. */
  ghost predicate WellFormed(room: Room) {
    && |room.players| > 0
    && UniqueIds(room.players)
    && LedgerMatchesRoster(room)
    && room.currentDrawerIndex < |room.players|
    && room.maxRounds == MAX_ROUNDS
    && room.round <= room.maxRounds
    && (room.word.None? <==> room.round == 0)
    && (room.word.Some? ==> room.word.value in WORDS)
  }

  /** Removing a player from a roster of distinct identifiers removes exactly
      that identifier. */
  lemma RemoveAtIds(ps: seq<Player>, j: nat)
    requires j < |ps| && UniqueIds(ps)
    ensures UniqueIds(RemoveAt(ps, j))
    ensures (set id | id in Ids(RemoveAt(ps, j))) == (set id | id in Ids(ps)) - {ps[j].id}
  {
    var r := RemoveAt(ps, j);
    forall id | id in Ids(r)
      ensures id in Ids(ps) && id != ps[j].id
    {
      var k :| 0 <= k < |r| && Ids(r)[k] == id;
      if k < j {
        assert Ids(ps)[k] == ps[k].id == id;
      } else {
        assert Ids(ps)[k + 1] == ps[k + 1].id == id;
      }
    }
    forall id | id in Ids(ps) && id != ps[j].id
      ensures id in Ids(r)
    {
      var k :| 0 <= k < |ps| && Ids(ps)[k] == id;
      if k < j {
        assert Ids(r)[k] == id;
      } else {
        assert k != j;
        assert Ids(r)[k - 1] == id;
      }
    }
  }

  /** Appending a player adds exactly its identifier, and keeps identifiers
      distinct when it was not yet present. */
  lemma AppendIds(ps: seq<Player>, p: Player)
    ensures Ids(ps + [p]) == Ids(ps) + [p.id]
    ensures (set id | id in Ids(ps + [p])) == (set id | id in Ids(ps)) + {p.id}
    ensures UniqueIds(ps) && p.id !in Ids(ps) ==> UniqueIds(ps + [p])
  {
    assert Ids(ps + [p]) == Ids(ps) + [p.id];
    if UniqueIds(ps) && p.id !in Ids(ps) {
      var qs := ps + [p];
      forall a, b | 0 <= a < b < |qs|
        ensures qs[a].id != qs[b].id
      {
        if b == |ps| {
          assert Ids(ps)[a] == qs[a].id;
        } else {
          assert qs[a] == ps[a] && qs[b] == ps[b];
        }
      }
    }
  }
}

=== FILE: scenarios.dfy ===
/**
  Joining and leaving on a well-formed server, and the server's behaviour on
  a few concrete sequences of events.
 */
module Scenarios {
  import opened Text
  import opened Rooms
  import opened Events
  import opened Turns
  import opened RoomRegistry
  import opened Handlers
  import opened Invariants
  import opened Guessing

  /** A second identical join changes nothing: roster, order and ledger stay
      as the first join left them. */
  lemma JoinTwiceIsNoop(reg: Registry, socket: PlayerId, roomId: RoomId, name: string, name2: string)
    requires roomId != "" && name != "" && name2 != ""
    ensures var once := Join(reg, socket, roomId, name);
            Join(once.reg, socket, roomId, name2).reg == once.reg
  {
    var once := Join(reg, socket, roomId, name);
    var room := Lookup(once.reg, roomId).value;
    if Lookup(reg, roomId).None? {
      assert Lookup(once.reg, roomId) == Some(once.reg[|reg|].room);
      assert room.players == [Player(socket, name, false)];
      assert Ids(room.players)[0] == socket;
    } else {
      var before := Lookup(reg, roomId).value;
      if socket !in Ids(before.players) {
        AppendIds(before.players, Player(socket, name, false));
      }
    }
    assert socket in Ids(room.players);
  }

  /** On a well-formed server a fresh join adds exactly one player, who has
      not guessed and scores 0; the existing roster and ledger are kept. */
  lemma FreshJoinAppendsOne(reg: Registry, socket: PlayerId, roomId: RoomId, name: string)
    requires RegistryOk(reg) && roomId != "" && name != ""
    requires Lookup(reg, roomId).Some? && socket !in Ids(Lookup(reg, roomId).value.players)
    ensures var before := Lookup(reg, roomId).value;
            var after := Lookup(Join(reg, socket, roomId, name).reg, roomId).value;
            && after.players == before.players + [Player(socket, name, false)]
            && after.scores == before.scores[socket := 0]
  {
    var before := Lookup(reg, roomId).value;
    assert HoldsAt(reg, roomId);
    var after := Admit(before, socket, name);
    assert socket !in before.scores;
    assert after.scores == before.scores[socket := 0];
  }

  /** On a well-formed server, a leave from a room that keeps players removes
      the player's first entry from its roster (the others keep their order)
      and the player from its ledger; the drawer index stays when it still
      points into the roster and is reset to 0 otherwise; the state sent to
      the room flags exactly one drawer, the entry at that index. */
  lemma LeaveKeepsOneDrawer(reg: Registry, socket: PlayerId)
    requires RegistryOk(reg) && FirstRoomWith(reg, socket).Some?
    requires |reg[FirstRoomWith(reg, socket).value].room.players| > 1
    ensures var e := reg[FirstRoomWith(reg, socket).value];
            var r := Disconnect(reg, socket);
            && Lookup(r.reg, e.id).Some?
            && var after := Lookup(r.reg, e.id).value;
            && socket !in Ids(after.players) && socket !in after.scores
            && (exists j :: 0 <= j < |e.room.players| && e.room.players[j].id == socket
                            && after.players == e.room.players[..j] + e.room.players[j + 1..])
            && after.currentDrawerIndex ==
                 (if e.room.currentDrawerIndex < |after.players| then e.room.currentDrawerIndex else 0)
            && |r.out| == 1 && r.out[0].to == ToRoom(e.id) && r.out[0].event.RoomState?
            && DrawerMarks(r.out[0].event.snapshot) == {after.currentDrawerIndex}
  {
    var e := reg[FirstRoomWith(reg, socket).value];
    assert Lookup(reg, e.id) == Some(e.room);
    assert HoldsAt(reg, e.id);
    var after := Without(e.room, socket);
    SnapshotMarksOneDrawer(after);
  }

  /** When the last player leaves, the room disappears, and a later join under
      the same id starts a brand-new room: round 0, no word, only the new
      player on the roster and in the ledger. */
  lemma LastLeaveForgetsRoom(reg: Registry, socket: PlayerId, next: PlayerId, name: string)
    requires FirstRoomWith(reg, socket).Some?
    requires |reg[FirstRoomWith(reg, socket).value].room.players| == 1
    requires name != "" && reg[FirstRoomWith(reg, socket).value].id != ""
    ensures var k := reg[FirstRoomWith(reg, socket).value].id;
            var gone := Disconnect(reg, socket);
            var back := Join(gone.reg, next, k, name);
            && Lookup(gone.reg, k).None? && gone.out == []
            && Lookup(back.reg, k) == Some(CreateRoom(k).(players := [Player(next, name, false)],
                                                          scores := map[next := 0]))
  {
    var k := reg[FirstRoomWith(reg, socket).value].id;
    var gone := Disconnect(reg, socket);
    var back := Join(gone.reg, next, k, name);
    assert Lookup(back.reg, k) == Some(back.reg[|gone.reg|].room);
  }

  lemma CatIsTrimmed()
    ensures Trim("Cat") == "Cat"
  {
    assert !IsSpace('C') && !IsSpace('t');
    TrimFixesTrimmed("Cat");
  }

  lemma CatLowered()
    ensures ToLower("Cat") == "cat"
  {
    assert LowerChar('C') == 'c';
  }

  /** A padded, capitalised guess matches: " Cat " is correct for "cat". */
  lemma PaddedCapitalisedGuessMatches()
    ensures IsCorrect(Some("cat"), " Cat ")
  {
    assert AllSpace(" ") by { assert IsSpace(' '); }
    assert " Cat " == " " + "Cat" + " ";
    NormalizeIgnoresPadding(" ", "Cat", " ");
    CatIsTrimmed();
    CatLowered();
    ToLowerFixesLower("cat");
  }

  lemma DogIsTrimmed()
    ensures Trim("dog") == "dog"
  {
    assert !IsSpace('d') && !IsSpace('g');
    TrimFixesTrimmed("dog");
  }

  lemma DogNormalized()
    ensures Normalize("dog") == "dog"
  {
    DogIsTrimmed();
    ToLowerFixesLower("dog");
  }

  /** An exact guess of a lower-case word matches it. */
  lemma ExactGuessMatches()
    ensures IsCorrect(Some("dog"), "dog")
  {
    DogNormalized();
  }

  /** Two players join room "r1" and the game starts: before the start both
      are listed at round 0; after it, round 1 begins with the first player
      drawing, the room learns the word's length and only the drawer's socket
      is sent the word. */
  lemma TwoJoinThenStart(pick: WordChoice)
    ensures var s1 := Join([], "A", "r1", "Ann");
            var s2 := Join(s1.reg, "B", "r1", "Bob");
            var s3 := StartGame(s2.reg, "r1", pick);
            var lobby := Lookup(s2.reg, "r1").value;
            var room := Lookup(s3.reg, "r1").value;
            && Ids(lobby.players) == ["A", "B"] && lobby.round == 0
            && s2.out == [Outbound(ToRoom("r1"), RoomState(Serialize(lobby)))]
            && room.round == 1 && room.currentDrawerIndex == 0 && room.word == Some(WORDS[pick])
            && s3.out == [Outbound(ToRoom("r1"), NewTurn("r1", "A", "Ann", 1, MAX_ROUNDS, |WORDS[pick]|)),
                          Outbound(ToSocket("A"), YourWord(WORDS[pick]))]
  {
    var s1 := Join([], "A", "r1", "Ann");
    var r0 := CreateRoom("r1").(players := [Player("A", "Ann", false)], scores := map["A" := 0]);
    assert s1.reg == [Entry("r1", r0)];
    assert Lookup(s1.reg, "r1") == Some(r0);
    assert Ids(r0.players) == ["A"];
    var s2 := Join(s1.reg, "B", "r1", "Bob");
    var lobby := Admit(r0, "B", "Bob");
    assert lobby.players == [Player("A", "Ann", false), Player("B", "Bob", false)];
    assert Lookup(s2.reg, "r1") == Some(lobby);
    assert Ids(lobby.players) == ["A", "B"];
  }

  /** Round 1 in room "r1": Ann draws "dog", Bob has not guessed yet. */
  function AnnDrawsDog(): Room {
    Room("r1", [Player("A", "Ann", false), Player("B", "Bob", false)], 0,
         Some("dog"), map["A" := 0, "B" := 0], 1, MAX_ROUNDS)
  }

  /** The room Ann leaves behind: Bob alone, at position 0. */
  lemma AnnLeaves()
    ensures "A" in Ids(AnnDrawsDog().players)
    ensures Without(AnnDrawsDog(), "A") ==
              AnnDrawsDog().(players := [Player("B", "Bob", false)], scores := map["B" := 0])
  {
    assert Ids(AnnDrawsDog().players)[0] == "A";
    var after := Without(AnnDrawsDog(), "A");
    assert after.players == [Player("B", "Bob", false)];
    assert after.scores == map["B" := 0];
  }

  /** Ann, the drawer, leaves: Bob moves to position 0 and is flagged as the
      drawer, while the turn (round 1, "dog") goes on. */
  lemma DrawerLeavesPartnerFlagged()
    ensures var r := Disconnect([Entry("r1", AnnDrawsDog())], "A");
            && Lookup(r.reg, "r1") == Some(AnnDrawsDog().(players := [Player("B", "Bob", false)],
                                                          scores := map["B" := 0]))
            && r.out == [Outbound(ToRoom("r1"), RoomState(Snapshot("r1", [PlayerView("B", "Bob", false, true)],
                                                                    map["B" := 0], 1, MAX_ROUNDS)))]
  {
    var reg: Registry := [Entry("r1", AnnDrawsDog())];
    assert FirstRoomWith(reg, "A") == Some(0) by { assert Ids(AnnDrawsDog().players)[0] == "A"; }
    AnnLeaves();
    var after := AnnDrawsDog().(players := [Player("B", "Bob", false)], scores := map["B" := 0]);
    assert Serialize(after).players == [PlayerView("B", "Bob", false, true)];
  }

  /** The room Bob leaves behind when he was drawing: Ann alone, and the
      drawer index, no longer in range, back at 0. */
  lemma BobLeavesAsDrawer()
    ensures "B" in Ids(AnnDrawsDog().players)
    ensures Without(AnnDrawsDog().(currentDrawerIndex := 1), "B") ==
              AnnDrawsDog().(players := [Player("A", "Ann", false)], scores := map["A" := 0],
                             currentDrawerIndex := 0)
  {
    var room := AnnDrawsDog().(currentDrawerIndex := 1);
    assert Ids(room.players)[1] == "B";
    assert IndexOfPlayer(room.players, "B") == Some(1);
    var after := Without(room, "B");
    assert after.players == [Player("A", "Ann", false)];
    assert after.scores == map["A" := 0];
  }

  /** Bob draws and leaves: the drawer index 1 no longer points into the
      roster, so it is reset to 0 and Ann is flagged. */
  lemma LastDrawerLeavesIndexReset()
    ensures var room := AnnDrawsDog().(currentDrawerIndex := 1);
            var r := Disconnect([Entry("r1", room)], "B");
            && Lookup(r.reg, "r1") == Some(room.(players := [Player("A", "Ann", false)],
                                                 scores := map["A" := 0], currentDrawerIndex := 0))
            && r.out == [Outbound(ToRoom("r1"), RoomState(Snapshot("r1", [PlayerView("A", "Ann", false, true)],
                                                                    map["A" := 0], 1, MAX_ROUNDS)))]
  {
    var room := AnnDrawsDog().(currentDrawerIndex := 1);
    var reg: Registry := [Entry("r1", room)];
    assert FirstRoomWith(reg, "B") == Some(0) by { assert Ids(room.players)[1] == "B"; }
    BobLeavesAsDrawer();
    var after := room.(players := [Player("A", "Ann", false)], scores := map["A" := 0], currentDrawerIndex := 0);
    assert Serialize(after).players == [PlayerView("A", "Ann", false, true)];
  }

  /** Crediting Bob leaves nobody but the drawer without a correct guess. */
  lemma CreditingBobEndsTurn()
    ensures var c := Credit(AnnDrawsDog(), 1);
            c.scores == map["A" := 0, "B" := 100] && AllGuessed(c)
  {
    var c := Credit(AnnDrawsDog(), 1);
    assert c.scores == map["A" := 0, "B" := 100];
    AllGuessedByPosition(c);
  }

  /** The turn after Ann's is Bob's, in round 2. */
  lemma BobDrawsNext(pick: WordChoice)
    ensures var t := StartNextTurn(Credit(AnnDrawsDog(), 1).(currentDrawerIndex := 1), pick);
            && t.room.round == 2 && t.room.currentDrawerIndex == 1
            && t.room.scores == map["A" := 0, "B" := 100]
            && |t.out| == 2 && t.out[1] == Outbound(ToSocket("B"), YourWord(WORDS[pick]))
  {
    CreditingBobEndsTurn();
    var t := StartNextTurn(Credit(AnnDrawsDog(), 1).(currentDrawerIndex := 1), pick);
    assert Ids(t.room.players)[1] == "B";
  }

  /** Bob's correct guess, once normalised. */
  lemma BobGuessesDog(guess: string, pick: WordChoice)
    ensures var s := Evaluate([Entry("r1", AnnDrawsDog())], "r1", AnnDrawsDog(), 1, guess, "dog", pick);
            && Lookup(s.reg, "r1").Some?
            && var after := Lookup(s.reg, "r1").value;
            && after.scores == map["A" := 0, "B" := 100]
            && after.round == 2 && after.currentDrawerIndex == 1
            && |s.out| == 5
            && s.out[0] == Outbound(ToRoom("r1"), ChatMessage("B", "Bob", guess))
            && s.out[1] == Outbound(ToRoom("r1"), CorrectGuess("B", "Bob", map["A" := 0, "B" := 100]))
            && s.out[2] == Outbound(ToRoom("r1"), RoomState(Serialize(Credit(AnnDrawsDog(), 1))))
            && s.out[3] == Outbound(ToRoom("r1"), NewTurn("r1", "B", "Bob", 2, MAX_ROUNDS, |WORDS[pick]|))
            && s.out[4] == Outbound(ToSocket("B"), YourWord(WORDS[pick]))
  {
    var reg: Registry := [Entry("r1", AnnDrawsDog())];
    assert Lookup(reg, "r1") == Some(AnnDrawsDog());
    ToLowerFixesLower("dog");
    assert Matches(AnnDrawsDog().word, "dog");
    CreditingBobEndsTurn();
    BobDrawsNext(pick);
    assert Ids(Credit(AnnDrawsDog(), 1).players)[1] == "B";
  }

  /** Ann draws "dog" and Bob sends a guess that normalises to "dog" (such as
      "dog" itself, see `ExactGuessMatches`): Bob gets 100 points, the room
      hears the guess and who got it, and, Bob being the only guesser, round 2
      starts at once with Bob drawing and alone told the new word. */
  lemma GuessEndsTwoPlayerTurn(guess: string, pick: WordChoice)
    requires guess != "" && Normalize(guess) == "dog"
    ensures var s := GuessWord([Entry("r1", AnnDrawsDog())], "B", "r1", guess, pick);
            && Lookup(s.reg, "r1").Some?
            && var after := Lookup(s.reg, "r1").value;
            && after.scores == map["A" := 0, "B" := 100]
            && after.round == 2 && after.currentDrawerIndex == 1
            && |s.out| == 5
            && s.out[0] == Outbound(ToRoom("r1"), ChatMessage("B", "Bob", guess))
            && s.out[1] == Outbound(ToRoom("r1"), CorrectGuess("B", "Bob", map["A" := 0, "B" := 100]))
            && s.out[2] == Outbound(ToRoom("r1"), RoomState(Serialize(Credit(AnnDrawsDog(), 1))))
            && s.out[3] == Outbound(ToRoom("r1"), NewTurn("r1", "B", "Bob", 2, MAX_ROUNDS, |WORDS[pick]|))
            && s.out[4] == Outbound(ToSocket("B"), YourWord(WORDS[pick]))
  {
    var room := AnnDrawsDog();
    var reg: Registry := [Entry("r1", room)];
    assert Lookup(reg, "r1") == Some(room);
    assert Ids(room.players) == ["A", "B"];
    assert IndexOfPlayer(room.players, "B") == Some(1);
    assert GuessWord(reg, "B", "r1", guess, pick) == Evaluate(reg, "r1", room, 1, guess, "dog", pick);
    BobGuessesDog(guess, pick);
  }

  /** Crediting Ann, the drawer, leaves Bob still to guess. */
  lemma CreditingAnnKeepsTurn()
    ensures var c := Credit(AnnDrawsDog(), 0);
            c.scores == map["A" := 100, "B" := 0] && !AllGuessed(c)
  {
    var c := Credit(AnnDrawsDog(), 0);
    assert c.scores == map["A" := 100, "B" := 0];
    AllGuessedByPosition(c);
    assert !c.players[1].guessed;
  }

  /** Ann's own correct guess, once normalised. */
  lemma AnnGuessesDog(guess: string, pick: WordChoice)
    ensures var s := Evaluate([Entry("r1", AnnDrawsDog())], "r1", AnnDrawsDog(), 0, guess, "dog", pick);
            && Lookup(s.reg, "r1").Some?
            && var after := Lookup(s.reg, "r1").value;
            && after.scores == map["A" := 100, "B" := 0]
            && after.round == 1 && after.currentDrawerIndex == 0
            && |s.out| == 3
            && s.out[1] == Outbound(ToRoom("r1"), CorrectGuess("A", "Ann", map["A" := 100, "B" := 0]))
  {
    var reg: Registry := [Entry("r1", AnnDrawsDog())];
    assert Lookup(reg, "r1") == Some(AnnDrawsDog());
    ToLowerFixesLower("dog");
    assert Matches(AnnDrawsDog().word, "dog");
    CreditingAnnKeepsTurn();
  }

  /** Guess handling has no role check: the drawer may score on their own
      word. Ann, drawing "dog", sends a guess normalising to "dog" and gets
      100 points; Bob has not guessed, so the turn goes on. */
  lemma DrawerScoresOwnWord(guess: string, pick: WordChoice)
    requires guess != "" && Normalize(guess) == "dog"
    ensures var s := GuessWord([Entry("r1", AnnDrawsDog())], "A", "r1", guess, pick);
            && Lookup(s.reg, "r1").Some?
            && var after := Lookup(s.reg, "r1").value;
            && after.scores == map["A" := 100, "B" := 0]
            && after.round == 1 && after.currentDrawerIndex == 0
            && |s.out| == 3
            && s.out[1] == Outbound(ToRoom("r1"), CorrectGuess("A", "Ann", map["A" := 100, "B" := 0]))
  {
    var room := AnnDrawsDog();
    var reg: Registry := [Entry("r1", room)];
    assert Lookup(reg, "r1") == Some(room);
    assert Ids(room.players) == ["A", "B"];
    assert IndexOfPlayer(room.players, "A") == Some(0);
    assert GuessWord(reg, "A", "r1", guess, pick) == Evaluate(reg, "r1", room, 0, guess, "dog", pick);
    AnnGuessesDog(guess, pick);
  }

  /** Ann draws "dog", Bob has guessed it and Cy has not. */
  function TrioCyToGuess(): Room {
    Room("r1", [Player("A", "Ann", false), Player("B", "Bob", true), Player("C", "Cy", false)], 0,
         Some("dog"), map["A" := 0, "B" := 100, "C" := 0], 1, MAX_ROUNDS)
  }

  /** Cy, the last non-drawer still to guess, leaves: every remaining
      non-drawer has now guessed, yet the turn stays open in round 1 on the
      same word, and the room is only sent its new state. */
  lemma LastGuesserLeavesTurnStaysOpen()
    ensures var r := Disconnect([Entry("r1", TrioCyToGuess())], "C");
            && Lookup(r.reg, "r1").Some?
            && var after := Lookup(r.reg, "r1").value;
            && after.players == [Player("A", "Ann", false), Player("B", "Bob", true)]
            && AllGuessed(after)
            && after.round == 1 && after.word == Some("dog") && after.currentDrawerIndex == 0
            && r.out == [Outbound(ToRoom("r1"), RoomState(Serialize(after)))]
  {
    var room := TrioCyToGuess();
    var reg: Registry := [Entry("r1", room)];
    assert FirstRoomWith(reg, "C") == Some(0) by { assert Ids(room.players)[2] == "C"; }
    var after := Without(room, "C");
    assert after.players == [Player("A", "Ann", false), Player("B", "Bob", true)];
    AllGuessedByPosition(after);
  }
}

=== FILE: secrecy.dfy ===
/**
  Who is told the word. The server never puts the word into an event it
  builds for the room channel: `newTurn` carries only its length, and the
  word itself travels in `yourWord`, addressed to the socket of the room's
  drawer. A correct guess is still echoed to the room as chat, word for word.
 */
module Secrecy {
  import opened Text
  import opened Rooms
  import opened Events
  import opened Turns
  import opened RoomRegistry
  import opened Handlers

  /** `socket` draws `w` in the room registered under `k`. */
  ghost predicate DrawsIn(reg: Registry, k: RoomId, socket: PlayerId, w: string) {
    && Lookup(reg, k).Some?
    && var room := Lookup(reg, k).value;
       && room.currentDrawerIndex < |room.players|
       && room.players[room.currentDrawerIndex].id == socket
       && room.word == Some(w)
  }

  /** Every `yourWord` in `out` goes to one socket, the drawer of the room
      registered under `k`, and carries that room's active word. */
  ghost predicate WordOnlyToDrawer(reg: Registry, k: RoomId, out: seq<Outbound>) {
    forall j :: 0 <= j < |out| && out[j].event.YourWord? ==>
      out[j].to.ToSocket? && DrawsIn(reg, k, out[j].to.socketId, out[j].event.word)
  }

  predicate NoWord(out: seq<Outbound>) {
    forall j :: 0 <= j < |out| ==> !out[j].event.YourWord?
  }

  /** The announcements of a credited guess carry no word. */
  lemma AnnouncementsCarryNoWord(roomId: RoomId, p: Player, guess: string, credited: Room)
    ensures NoWord(Announcements(roomId, p, guess, credited))
  {
  }

  /** Emissions that carry no word tell nobody the word. */
  lemma SilentTellsNobody(reg: Registry, k: RoomId, out: seq<Outbound>)
    requires NoWord(out)
    ensures WordOnlyToDrawer(reg, k, out)
  {
  }

  /** The emissions of a turn start, stored under `k`, only tell the drawer. */
  lemma TurnTellsOnlyDrawer(reg: Registry, k: RoomId, room: Room, pick: WordChoice, head: seq<Outbound>)
    requires Lookup(reg, k) == Some(StartNextTurn(room, pick).room) && NoWord(head)
    ensures WordOnlyToDrawer(reg, k, head + StartNextTurn(room, pick).out)
  {
    var t := StartNextTurn(room, pick);
    var out := head + t.out;
    forall j | 0 <= j < |out| && out[j].event.YourWord?
      ensures out[j].to.ToSocket? && DrawsIn(reg, k, out[j].to.socketId, out[j].event.word)
    {
      assert j == |head| + 1;
    }
  }

  lemma StartGameTellsOnlyDrawer(reg: Registry, roomId: RoomId, pick: WordChoice)
    ensures WordOnlyToDrawer(StartGame(reg, roomId, pick).reg, roomId, StartGame(reg, roomId, pick).out)
  {
    var r := StartGame(reg, roomId, pick);
    if Lookup(reg, roomId).Some? {
      var room := Lookup(reg, roomId).value;
      TurnTellsOnlyDrawer(r.reg, roomId, room.(round := 0, currentDrawerIndex := 0), pick, []);
      assert [] + r.out == r.out;
    }
  }

  lemma NextTurnTellsOnlyDrawer(reg: Registry, roomId: RoomId, pick: WordChoice)
    ensures WordOnlyToDrawer(NextTurn(reg, roomId, pick).reg, roomId, NextTurn(reg, roomId, pick).out)
  {
    var r := NextTurn(reg, roomId, pick);
    if Lookup(reg, roomId).Some? {
      var room := Lookup(reg, roomId).value;
      TurnTellsOnlyDrawer(r.reg, roomId, room.(currentDrawerIndex := room.currentDrawerIndex + 1), pick, []);
      assert [] + r.out == r.out;
    }
  }

  /** A guess that completes the set starts the next turn, which only tells
      the drawer. */
  lemma CompletingGuessTellsOnlyDrawer(reg: Registry, roomId: RoomId, room: Room, i: nat, guess: string,
                                       normalized: string, pick: WordChoice)
    requires Lookup(reg, roomId) == Some(room) && i < |room.players|
    requires Matches(room.word, normalized) && !room.players[i].guessed && AllGuessed(Credit(room, i))
    ensures var r := Evaluate(reg, roomId, room, i, guess, normalized, pick); WordOnlyToDrawer(r.reg, roomId, r.out)
  {
    var s := Credit(room, i);
    var head := Announcements(roomId, room.players[i], guess, s);
    AnnouncementsCarryNoWord(roomId, room.players[i], guess, s);
    CompletingGuessOut(reg, roomId, room, i, guess, normalized, pick);
    var out := Evaluate(reg, roomId, room, i, guess, normalized, pick).out;
    forall j | 0 <= j < |out| && out[j].event.YourWord?
      ensures out[j].to.ToSocket? && DrawsIn(Evaluate(reg, roomId, room, i, guess, normalized, pick).reg,
                                             roomId, out[j].to.socketId, out[j].event.word)
    {
      assert j == |head| + 1;
    }
  }

  /** Any other guess emits no word at all. */
  lemma OtherGuessTellsNobody(reg: Registry, roomId: RoomId, room: Room, i: nat, guess: string,
                              normalized: string, pick: WordChoice)
    requires Lookup(reg, roomId) == Some(room) && i < |room.players|
    requires !(Matches(room.word, normalized) && !room.players[i].guessed && AllGuessed(Credit(room, i)))
    ensures NoWord(Evaluate(reg, roomId, room, i, guess, normalized, pick).out)
  {
    var r := Evaluate(reg, roomId, room, i, guess, normalized, pick);
    var p := room.players[i];
    if Matches(room.word, normalized) && !p.guessed {
      assert r.out == Announcements(roomId, p, guess, Credit(room, i));
    } else {
      assert r.out == [Outbound(ToRoom(roomId), ChatMessage(p.id, p.name, guess))];
    }
  }

  lemma EvaluateTellsOnlyDrawer(reg: Registry, roomId: RoomId, room: Room, i: nat, guess: string,
                                normalized: string, pick: WordChoice)
    requires Lookup(reg, roomId) == Some(room) && i < |room.players|
    ensures var r := Evaluate(reg, roomId, room, i, guess, normalized, pick); WordOnlyToDrawer(r.reg, roomId, r.out)
  {
    var r := Evaluate(reg, roomId, room, i, guess, normalized, pick);
    if Matches(room.word, normalized) && !room.players[i].guessed && AllGuessed(Credit(room, i)) {
      CompletingGuessTellsOnlyDrawer(reg, roomId, room, i, guess, normalized, pick);
    } else {
      OtherGuessTellsNobody(reg, roomId, room, i, guess, normalized, pick);
      SilentTellsNobody(r.reg, roomId, r.out);
    }
  }

  /** Whatever event the server handles, the word goes only to the drawer of
      the room the event touches. */
  lemma DispatchTellsOnlyDrawer(reg: Registry, a: Action)
    ensures WordOnlyToDrawer(Dispatch(reg, a).reg, Touched(reg, a), Dispatch(reg, a).out)
  {
    var r := Dispatch(reg, a);
    match a
    case JoinRoom(socket, roomId, name) =>
      assert NoWord(r.out);
      SilentTellsNobody(r.reg, Touched(reg, a), r.out);
    case DisconnectAction(socket) =>
      assert NoWord(r.out);
      SilentTellsNobody(r.reg, Touched(reg, a), r.out);
    case StartGameAction(roomId, pick) =>
      StartGameTellsOnlyDrawer(reg, roomId, pick);
    case NextTurnAction(roomId, pick) =>
      NextTurnTellsOnlyDrawer(reg, roomId, pick);
    case GuessWordAction(socket, roomId, guess, pick) =>
      if Lookup(reg, roomId).Some? && guess != "" && socket in Ids(Lookup(reg, roomId).value.players) {
        var room := Lookup(reg, roomId).value;
        EvaluateTellsOnlyDrawer(reg, roomId, room, IndexOfPlayer(room.players, socket).value, guess,
                                Normalize(guess), pick);
      } else {
        assert NoWord(r.out);
        SilentTellsNobody(r.reg, Touched(reg, a), r.out);
      }
  }
}

=== FILE: text.dfy ===
/**
  Normalisation of guesses. The server compares a guess with the secret word
  after stripping surrounding white space (ECMAScript `String.prototype.trim`)
  and folding case (`toLowerCase`, here restricted to ASCII letters).
 */
module Text {

  /** The characters `trim` removes: ECMAScript WhiteSpace (TAB, VT, FF,
      ZWNBSP and every Unicode space separator) and LineTerminator. */
  predicate IsSpace(c: char) {
    || c == '\t' || c == '\U{000B}' || c == '\U{000C}' || c == ' '
    || c == '\U{00A0}' || c == '\U{1680}' || ('\U{2000}' <= c <= '\U{200A}')
    || c == '\U{202F}' || c == '\U{205F}' || c == '\U{3000}' || c == '\U{FEFF}'
    || c == '\n' || c == '\r' || c == '\U{2028}' || c == '\U{2029}'
  }

  predicate AllSpace(s: string) {
    forall i :: 0 <= i < |s| ==> IsSpace(s[i])
  }

  /** Slices of the tail are slices of the whole, shifted by one. */
  lemma TailSlices<T>(s: seq<T>, k: nat)
    requires 0 < |s| && k <= |s| - 1
    ensures s[1..][k..] == s[k + 1..] && s[..k + 1] == [s[0]] + s[1..][..k]
  {
  }

  /** Slices of all but the last element are slices of the whole. */
  lemma InitSlices<T>(s: seq<T>, m: nat)
    requires 0 < |s| && m <= |s| - 1
    ensures s[..|s| - 1][..m] == s[..m] && s[m..] == s[..|s| - 1][m..] + [s[|s| - 1]]
  {
  }

  /** Drops leading white space: the result is the suffix of `s` that starts
      at its first non-space character. */
  function TrimStart(s: string): (r: string)
    ensures |r| <= |s| && r == s[|s| - |r|..]
    ensures AllSpace(s[..|s| - |r|])
    ensures r == [] || !IsSpace(r[0])
  {
    if |s| > 0 && IsSpace(s[0]) then
      var t := TrimStart(s[1..]);
      TailSlices(s, |s| - 1 - |t|);
      AllSpaceConcat([s[0]], s[1..][..|s| - 1 - |t|]);
      t
    else
      s
  }

  /** Drops trailing white space: the result is the prefix of `s` that ends
      at its last non-space character. */
  function TrimEnd(s: string): (r: string)
    ensures |r| <= |s| && r == s[..|r|]
    ensures AllSpace(s[|r|..])
    ensures r == [] || !IsSpace(r[|r| - 1])
  {
    if |s| > 0 && IsSpace(s[|s| - 1]) then
      var t := TrimEnd(s[..|s| - 1]);
      InitSlices(s, |t|);
      AllSpaceConcat(s[..|s| - 1][|t|..], [s[|s| - 1]]);
      t
    else
      s
  }

  /** Slicing a suffix is slicing the whole. */
  lemma SuffixSlices<T>(s: seq<T>, i: nat, n: nat)
    requires i + n <= |s|
    ensures s[i..][..n] == s[i..i + n] && s[i..][n..] == s[i + n..]
  {
  }

  /** `trim`: the infix of `s` left once white space is removed from both ends. */
  function Trim(s: string): (r: string)
    ensures exists i :: 0 <= i <= |s| - |r| && r == s[i..i + |r|]
                        && AllSpace(s[..i]) && AllSpace(s[i + |r|..])
    ensures r == [] || (!IsSpace(r[0]) && !IsSpace(r[|r| - 1]))
  {
    var a := TrimStart(s);
    var r := TrimEnd(a);
    SuffixSlices(s, |s| - |a|, |r|);
    r
  }

  predicate IsUpper(c: char) {
    'A' <= c <= 'Z'
  }

  function LowerChar(c: char): char {
    if IsUpper(c) then (c as int + 32) as char else c
  }

  /** `toLowerCase` on ASCII letters: no upper-case letter survives, every
      other character is kept. */
  function ToLower(s: string): (r: string)
    ensures |r| == |s|
    ensures forall i :: 0 <= i < |s| ==> !IsUpper(r[i])
    ensures forall i :: 0 <= i < |s| && !IsUpper(s[i]) ==> r[i] == s[i]
    ensures forall i :: 0 <= i < |s| && IsUpper(s[i]) ==> r[i] as int == s[i] as int + 32
  {
    seq(|s|, i requires 0 <= i < |s| => LowerChar(s[i]))
  }

  /** The form a guess is compared in: trimmed, then lower-cased. */
  function Normalize(g: string): string {
    ToLower(Trim(g))
  }

  /** Lower-casing never turns white space into anything else, nor anything
      else into white space. */
  lemma LowerCharKeepsSpace(c: char)
    ensures IsSpace(LowerChar(c)) <==> IsSpace(c)
  {
  }

  /** Lower-casing keeps the white-space ends of a string. */
  lemma ToLowerKeepsEnds(t: string)
    requires t == [] || (!IsSpace(t[0]) && !IsSpace(t[|t| - 1]))
    ensures var n := ToLower(t); n == [] || (!IsSpace(n[0]) && !IsSpace(n[|n| - 1]))
  {
    if t != [] {
      LowerCharKeepsSpace(t[0]);
      LowerCharKeepsSpace(t[|t| - 1]);
    }
  }

  /** The normalised form of a guess is no longer than the guess, holds no
      upper-case letter and neither starts nor ends with white space. */
  lemma NormalizeShape(g: string)
    ensures var n := Normalize(g);
            && |n| <= |g|
            && (forall k :: 0 <= k < |n| ==> !IsUpper(n[k]))
            && (n == [] || (!IsSpace(n[0]) && !IsSpace(n[|n| - 1])))
  {
    ToLowerKeepsEnds(Trim(g));
  }

  /** Lower-casing leaves a string without upper-case letters unchanged. */
  lemma ToLowerFixesLower(s: string)
    requires forall i :: 0 <= i < |s| ==> !IsUpper(s[i])
    ensures ToLower(s) == s
  {
  }

  lemma ToLowerIdempotent(s: string)
    ensures ToLower(ToLower(s)) == ToLower(s)
  {
    ToLowerFixesLower(ToLower(s));
  }

  lemma {:induction false} TrimStartSpacePrefix(a: string, s: string)
    requires AllSpace(a)
    ensures TrimStart(a + s) == TrimStart(s)
    decreases |a|
  {
    if |a| > 0 {
      assert (a + s)[1..] == a[1..] + s;
      TrimStartSpacePrefix(a[1..], s);
    } else {
      assert a + s == s;
    }
  }

  lemma {:induction false} TrimEndSpaceSuffix(s: string, b: string)
    requires AllSpace(b)
    ensures TrimEnd(s + b) == TrimEnd(s)
    decreases |b|
  {
    if |b| > 0 {
      var b' := b[..|b| - 1];
      assert (s + b)[..|s + b| - 1] == s + b';
      TrimEndSpaceSuffix(s, b');
    } else {
      assert s + b == s;
    }
  }

  /** Leading trimming only looks as far as the first non-space character. */
  lemma {:induction false} TrimStartAppend(s: string, b: string)
    requires !AllSpace(s)
    ensures TrimStart(s + b) == TrimStart(s) + b
    decreases |s|
  {
    assert |s| > 0;
    if IsSpace(s[0]) {
      assert (s + b)[1..] == s[1..] + b;
      assert !AllSpace(s[1..]) by {
        var k :| 0 <= k < |s| && !IsSpace(s[k]);
        assert s[1..][k - 1] == s[k];
      }
      TrimStartAppend(s[1..], b);
    }
  }

  /** White space followed by white space is white space. */
  lemma AllSpaceConcat(s: string, b: string)
    requires AllSpace(s) && AllSpace(b)
    ensures AllSpace(s + b)
  {
    forall i | 0 <= i < |s + b|
      ensures IsSpace((s + b)[i])
    {
      if i < |s| {
        assert (s + b)[i] == s[i];
      } else {
        assert (s + b)[i] == b[i - |s|];
      }
    }
  }

  lemma {:induction false} TrimStartAllSpace(s: string)
    requires AllSpace(s)
    ensures TrimStart(s) == []
    decreases |s|
  {
    if |s| > 0 {
      assert IsSpace(s[0]);
      assert AllSpace(s[1..]) by {
        forall i | 0 <= i < |s[1..]|
          ensures IsSpace(s[1..][i])
        {
          assert s[1..][i] == s[i + 1];
        }
      }
      TrimStartAllSpace(s[1..]);
    }
  }

  /** Surrounding white space does not change the trimmed form. */
  lemma TrimIgnoresPadding(a: string, s: string, b: string)
    requires AllSpace(a) && AllSpace(b)
    ensures Trim(a + s + b) == Trim(s)
  {
    assert a + s + b == a + (s + b);
    TrimStartSpacePrefix(a, s + b);
    if AllSpace(s) {
      AllSpaceConcat(s, b);
      TrimStartAllSpace(s + b);
      TrimStartAllSpace(s);
    } else {
      TrimStartAppend(s, b);
      TrimEndSpaceSuffix(TrimStart(s), b);
    }
  }

  lemma {:induction false} TrimStartToLower(s: string)
    ensures TrimStart(ToLower(s)) == ToLower(TrimStart(s))
    decreases |s|
  {
    var l := ToLower(s);
    if |s| > 0 {
      assert IsSpace(l[0]) <==> IsSpace(s[0]);
      assert l[1..] == ToLower(s[1..]);
      TrimStartToLower(s[1..]);
    }
  }

  lemma {:induction false} TrimEndToLower(s: string)
    ensures TrimEnd(ToLower(s)) == ToLower(TrimEnd(s))
    decreases |s|
  {
    var l := ToLower(s);
    if |s| > 0 {
      assert IsSpace(l[|l| - 1]) <==> IsSpace(s[|s| - 1]);
      assert l[..|l| - 1] == ToLower(s[..|s| - 1]);
      TrimEndToLower(s[..|s| - 1]);
    }
  }

  /** Trimming and lower-casing commute: white space is never a letter. */
  lemma TrimToLower(s: string)
    ensures Trim(ToLower(s)) == ToLower(Trim(s))
  {
    TrimStartToLower(s);
    TrimEndToLower(TrimStart(s));
  }

  /** Guess comparison is insensitive to surrounding white space. */
  lemma NormalizeIgnoresPadding(a: string, g: string, b: string)
    requires AllSpace(a) && AllSpace(b)
    ensures Normalize(a + g + b) == Normalize(g)
  {
    TrimIgnoresPadding(a, g, b);
  }

  /** Guess comparison is insensitive to case: guesses that agree once
      lower-cased normalise alike. */
  lemma NormalizeIgnoresCase(g: string, h: string)
    requires ToLower(g) == ToLower(h)
    ensures Normalize(g) == Normalize(h)
  {
    TrimToLower(g);
    TrimToLower(h);
    ToLowerIdempotent(Trim(g));
    ToLowerIdempotent(Trim(h));
  }

  /** A string with no white space at either end is its own trimmed form. */
  lemma TrimFixesTrimmed(t: string)
    requires t == [] || (!IsSpace(t[0]) && !IsSpace(t[|t| - 1]))
    ensures Trim(t) == t
  {
    assert TrimStart(t) == t;
    assert TrimEnd(t) == t;
  }

  /** Normalising twice is normalising once. */
  lemma NormalizeIdempotent(g: string)
    ensures Normalize(Normalize(g)) == Normalize(g)
  {
    var t := Trim(g);
    TrimFixesTrimmed(t);
    TrimToLower(t);
    assert Trim(ToLower(t)) == ToLower(t);
    ToLowerIdempotent(t);
  }
}

=== FILE: turns.dfy ===
/**
  Turn progression: `startNextTurn`, and the all-guessed test that ends a
  turn early.
 */
module Turns {
  import opened Rooms
  import opened Events

  /** A room after a transition, with what the transition emitted. */
  datatype Transition = Transition(room: Room, out: seq<Outbound>)

  /** Every player's `guessed` flag cleared; identities and order kept. */
  function ResetGuessed(ps: seq<Player>): (r: seq<Player>)
    ensures |r| == |ps| && Ids(r) == Ids(ps)
    ensures forall i :: 0 <= i < |r| ==> r[i].name == ps[i].name && !r[i].guessed
  {
    seq(|ps|, i requires 0 <= i < |ps| => ps[i].(guessed := false))
  }

  /** `startNextTurn`. On an empty room nothing happens. Otherwise the round
      counter advances; past the last round the game ends (the full ledger is
      announced once and the room returns to its pre-game state), else a turn
      begins: the drawer index is brought back in range, the word is the
      picked one, nobody has guessed yet, the room learns only the word's
      length and the drawer alone is told the word. */
  function StartNextTurn(room: Room, pick: WordChoice): (t: Transition)
    ensures |room.players| == 0 ==> t == Transition(room, [])
    ensures |room.players| > 0 && room.round + 1 > room.maxRounds ==>
              && t.room == room.(round := 0, currentDrawerIndex := 0, word := None)
              && t.out == [Outbound(ToRoom(room.roomId), GameOver(room.scores))]
    ensures |room.players| > 0 && room.round + 1 <= room.maxRounds ==>
              && t.room.roomId == room.roomId
              && t.room.maxRounds == room.maxRounds
              && t.room.scores == room.scores
              && t.room.round == room.round + 1
              && t.room.currentDrawerIndex < |t.room.players|
              && (room.currentDrawerIndex < |room.players| ==>
                    t.room.currentDrawerIndex == room.currentDrawerIndex)
              && (room.currentDrawerIndex >= |room.players| ==> t.room.currentDrawerIndex == 0)
              && t.room.word == Some(WORDS[pick])
              && Ids(t.room.players) == Ids(room.players)
              && (forall i :: 0 <= i < |t.room.players| ==>
                    t.room.players[i].name == room.players[i].name && !t.room.players[i].guessed)
              && var d := t.room.players[t.room.currentDrawerIndex];
                 t.out == [Outbound(ToRoom(room.roomId),
                                    NewTurn(room.roomId, d.id, d.name, t.room.round,
                                            room.maxRounds, |WORDS[pick]|)),
                           Outbound(ToSocket(d.id), YourWord(WORDS[pick]))]
  {
    if |room.players| == 0 then
      Transition(room, [])
    else
      var round := room.round + 1;
      if round > room.maxRounds then
        Transition(room.(round := 0, currentDrawerIndex := 0, word := None),
                   [Outbound(ToRoom(room.roomId), GameOver(room.scores))])
      else
        var index := if room.currentDrawerIndex >= |room.players| then 0 else room.currentDrawerIndex;
        var drawer := room.players[index];
        var word := WORDS[pick];
        var next := room.(round := round, currentDrawerIndex := index, word := Some(word),
                          players := ResetGuessed(room.players));
        Transition(next,
                   [Outbound(ToRoom(room.roomId),
                             NewTurn(room.roomId, drawer.id, drawer.name, round,
                                     room.maxRounds, |word|)),
                    Outbound(ToSocket(drawer.id), YourWord(word))])
  }

  /** `players.filter((p, index) => index !== k)`. */
  function ExceptIndex(ps: seq<Player>, k: int): (r: seq<Player>)
    ensures 0 <= k < |ps| ==> r == ps[..k] + ps[k + 1..]
    ensures !(0 <= k < |ps|) ==> r == ps
  {
    if |ps| == 0 then []
    else
      var rest := ExceptIndex(ps[1..], k - 1);
      if k == 0 then
        assert rest == ps[1..];
        rest
      else
        assert 0 < k < |ps| ==> ps[..k] == [ps[0]] + ps[1..][..k - 1];
        assert 0 < k < |ps| ==> ps[k + 1..] == ps[1..][k..];
        [ps[0]] + rest
  }

  /** The players other than the one at the drawer index. */
  function NonDrawers(room: Room): seq<Player> {
    ExceptIndex(room.players, room.currentDrawerIndex)
  }

  /** The test that ends a turn early: someone besides the drawer is present
      and all of them have guessed. */
  predicate AllGuessed(room: Room) {
    var nd := NonDrawers(room);
    |nd| > 0 && forall p :: p in nd ==> p.guessed
  }

  /** The early end of a turn, stated by roster position: the roster holds
      someone besides the entry at the drawer index, and every position other
      than the drawer index has guessed. */
  lemma AllGuessedByPosition(room: Room)
    ensures AllGuessed(room) <==>
              && |room.players| > (if room.currentDrawerIndex < |room.players| then 1 else 0)
              && (forall i :: 0 <= i < |room.players| && i != room.currentDrawerIndex ==>
                    room.players[i].guessed)
  {
    var ps := room.players;
    var k := room.currentDrawerIndex;
    var nd := NonDrawers(room);
    var inRange := k < |ps|;
    assert |nd| == |ps| - (if inRange then 1 else 0);
    var everyoneElse := forall i :: 0 <= i < |ps| && i != k ==> ps[i].guessed;
    if |nd| > 0 && forall p :: p in nd ==> p.guessed {
      forall i | 0 <= i < |ps| && i != k
        ensures ps[i].guessed
      {
        if inRange && i > k {
          assert nd[i - 1] == ps[i];
        } else {
          assert nd[i] == ps[i];
        }
      }
    }
    if everyoneElse {
      forall p | p in nd
        ensures p.guessed
      {
        var j :| 0 <= j < |nd| && nd[j] == p;
        if inRange && j >= k {
          assert ps[j + 1] == p;
        } else {
          assert ps[j] == p;
        }
      }
    }
  }

  /** A room holding only its drawer never ends a turn early. */
  lemma LoneDrawerNeverAdvances(room: Room)
    requires |room.players| == 1 && room.currentDrawerIndex == 0
    ensures !AllGuessed(room)
  {
    AllGuessedByPosition(room);
  }

  /** Turn progression keeps the round counter within `[0, maxRounds]`. */
  lemma RoundStaysInBounds(room: Room, pick: WordChoice)
    requires room.round <= room.maxRounds
    ensures StartNextTurn(room, pick).room.round <= room.maxRounds
    ensures |room.players| > 0 ==>
              (StartNextTurn(room, pick).room.round == 0 <==> room.round == room.maxRounds)
  {
  }
}
